=== FILE: README.md ===
# airpandas write-and-identity core in Dafny

This project models how `airtable/airpandas.py` writes pandas data to an Airtable table and
how it works out which record a row stands for. It covers:

- the write protocol of `PandasAirtable`: plain and robust upsert, and robust insert and update
  with their per-field fallbacks;
- record-id lookup by primary key, and the table's default primary key;
- the `airtable` accessors of a Series (`AirRow`) and of a DataFrame (`AirDataFrame`):
  record-id resolution, the four row writes, and frame preparation plus the per-row loop;
- value coercion (`typecast_airtable_value`) and the record/frame codec
  (`airtable_record_to_Series`, `airtable_records_to_DataFrame`);
- the module-level upload of a Series or DataFrame, which matches rows by primary key;
- the attachment-list append rule and `unpack_list_field`.

The remote table is an abstract `Remote.Store` with three parts:

- a map from record id to field dictionary;
- the ids in table order;
- a log of every request and whether it was accepted.

A `Remote.Service` is an oracle. It decides whether a request is refused in a given state, and
which fresh id an insert gets. Rules that hold whatever the service decides are stated over the
log suffix a call produces (`PandasAirtable.Since`): the order and kind of requests, "never
searches", and "never inserts".

A Python exception is an `Err` of an `Outcomes.Result`, named by its class. Dictionaries are
ordered lists of entries (`Dicts.Dict`). Record ids and row labels are `Values.Name`, which is
None, an int or a string.

Where the code and its documentation differ, the model follows the code:

- `AirRow.insert` calls `robust_insert` whichever value `robust` has
  (`AirRow.InsertIgnoresRobust`).
- `robust_update` sends its bulk update with `typecast=True`, whatever argument it was given.
- When no key argument is given, `_prep_df` computes the accessor's primary key, even for a
  frame indexed by record id that never uses it. With no key set on the accessor and no table
  key available, that key falls back to the frame's first column, so it raises IndexError only
  for a frame without columns (`AirDataFrame.PrimaryKey`). A key argument skips this entirely.
- A row upsert whose key value several records share gets no record id. It therefore inserts a
  duplicate (`AirRow.UpsertWithAmbiguousKeyInserts`).
- After an insert, `AirRow.insert` reads `record['id']`. When the per-field fallback created a
  record but every re-applied field was refused, the reply has no `'id'` and this raises
  KeyError (`AirRow.Insert`).

## Model

| member | source | states |
|---|---|---|
| Values.Coerce | airtable/airpandas.py:692-702 | the result is always sendable; lists and other sendable values pass unchanged, an int64 becomes the int of the same value, a NaN-like value becomes None |
| Values.CoerceIdempotent | airtable/airpandas.py:692-702 | coercing twice is the same as coercing once |
| Values.CoerceFixedPoints | airtable/airpandas.py:692-702 | coercion leaves a value alone exactly when the API already accepts it at top level (no int64 and no NaN as the value itself) |
| Dicts.CoerceAll | airtable/airpandas.py:127 | the coerced dict has the same keys in the same order, each value coerced, everything sendable, and a sendable dict is left unchanged |
| Dicts.CoerceAllIdempotent | airtable/airpandas.py:134 | coercing a whole field dict twice is the same as once |
| Dicts.Select | airtable/airpandas.py:341-342 | the comprehension keeps exactly the entries whose key is listed, with their values, and keeps keys distinct; when every key is listed the dict comes back unchanged |
| Dicts.SelectAppend | airtable/airpandas.py:341-342 | selection distributes over concatenation, so the kept entries stay in the dict's order |
| Dicts.SelectOne | airtable/airpandas.py:341-342 | a single entry is kept exactly when its key is listed |
| PandasAirtable.TablePrimaryKey | airtable/airpandas.py:38-42 | the constructor's key wins; otherwise it is the pulled table's first column, the first field name of the first record that has fields; a table without any field raises IndexError |
| PandasAirtable.GetRecordId | airtable/airpandas.py:69-76 | one search; an id comes back only when exactly one record in table order holds the value, that record holds the value, otherwise None; a refused search raises |
| PandasAirtable.GetRecordIdUnique | airtable/airpandas.py:69-76 | on a consistent table an id comes back exactly when one stored record holds the value |
| PandasAirtable.UpdateOneFieldAtATime | airtable/airpandas.py:157-170 | one single-field update per field in mapping order against the same id; never raises; `fails` is exactly the refused fields in order; the record becomes the old one merged with exactly the accepted fields; no fields gives `{'fails': []}` with no request |
| PandasAirtable.UpdateEachReply | airtable/airpandas.py:159-170 | the loop appends the refused fields to `fails` in order, and the record kept for the reply is the last one an accepted update returned |
| PandasAirtable.UpdateEachStore | airtable/airpandas.py:159-167 | a refusal does not stop the loop; the stored record ends as the old one merged with the accepted fields only, and no other record changes |
| PandasAirtable.PickPositions | airtable/airpandas.py:159-169 | field i ends up in the accepted set exactly when its update was accepted, with its own value |
| PandasAirtable.PerFieldOutcome | airtable/airpandas.py:157-170 | after the fallback on an existing record, each field holds its new value when its update was accepted; otherwise it keeps its old value and is listed in `fails` |
| PandasAirtable.InsertFirstSpec | airtable/airpandas.py:146-153 | single-field inserts are tried in order and stop at the first accepted one; when none is accepted every field was tried and refused and the call raises TypeError |
| PandasAirtable.InsertOneFieldAtATime | airtable/airpandas.py:145-155 | either every single-field insert was refused and TypeError is raised, or the inserts ran until one created a new record, after which every field (the creating one too) was re-applied by per-field updates on the new id |
| PandasAirtable.CreatedThenReappliedFacts | airtable/airpandas.py:145-155 | a successful per-field insert makes no search, and any id in its reply is the newly created record |
| PandasAirtable.InsertOneFieldAtATimeNoSearch | airtable/airpandas.py:145-155 | the per-field insert never searches the table |
| PandasAirtable.RobustUpdate | airtable/airpandas.py:132-143 | values are coerced before any request; the first request is one bulk update with typecast True; per-field updates with the caller's typecast follow only if it was refused; an accepted bulk update returns that record |
| PandasAirtable.RobustUpdateNoSearch | airtable/airpandas.py:132-143 | robust update never searches |
| PandasAirtable.RobustUpdateNoInsert | airtable/airpandas.py:132-143 | robust update never inserts, so it never creates a record |
| PandasAirtable.RobustInsert | airtable/airpandas.py:125-130 | values are coerced; one bulk insert is made, and only when it is refused does the per-field insert follow, with the coerced fields |
| PandasAirtable.RobustInsertIdIsNew | airtable/airpandas.py:125-130 | whichever path runs, an id in the reply names a record that did not exist before and exists after |
| PandasAirtable.RobustInsertNoSearch | airtable/airpandas.py:125-130 | robust insert never searches |
| PandasAirtable.Upsert | airtable/airpandas.py:111-116 | a None id goes straight to insert; otherwise one update, and an insert of the same fields only when that update was refused |
| PandasAirtable.RobustUpsert | airtable/airpandas.py:118-123 | a None id is exactly robust insert; any other id is exactly robust update, which never raises into the insert branch, so no record is created |
| PandasAirtable.UpsertsNoSearch | airtable/airpandas.py:111-123 | neither upsert searches the table |
| PandasAirtable.FieldUpdatesSendable | airtable/airpandas.py:134-143 | per-field updates of coerced fields carry only values the API accepts |
| Remote.SearchCountsRecords | airtable/airpandas.py:70-76 | the search behind the lookup lists each matching stored record exactly once, so its length is the number of matching records |
| AirRow.RecIdShapeExact | airtable/airpandas.py:296-308 | a name looks like a record id exactly when it is a string made of "rec" and fourteen more characters; None and ints never do |
| AirRow.RecIdShapes | airtable/airpandas.py:296-308 | a sample record id is accepted; one a character short, one with another prefix, an int label and None are rejected |
| AirRow.PrimaryKey | airtable/airpandas.py:315-322 | the key set on the row wins, else the bound table's key; with no table it raises AttributeError |
| AirRow.RecordId | airtable/airpandas.py:278-322 | an id set by hand is returned with no request, else a rec-shaped label with no request; otherwise a failing primary key raises its exception (AttributeError without a table), a row without the key field raises KeyError, and else the result is exactly `get_record_id` on the key field and the row's value, whose id names a record holding that value; nothing is written |
| AirRow.RecordIdNeedsUniqueMatch | airtable/airpandas.py:278-313 | a row found by its primary key gets an id exactly when one record of a consistent table holds its key value |
| AirRow.Fields | airtable/airpandas.py:340-342 | the row's data, restricted to the listed field names when some are given; listing every field keeps the data unchanged |
| AirRow.Insert | airtable/airpandas.py:328-348 | asserts a table, then robust insert of the row's fields; on success the reply is returned and the row's record id becomes the reply's id; a reply without an id raises KeyError |
| AirRow.InsertIgnoresRobust | airtable/airpandas.py:343-346 | the `robust` flag does not change a row insert |
| AirRow.InsertBindsNewRecord | airtable/airpandas.py:328-348 | after a successful row insert the row's id names a record that is new in the table |
| AirRow.InsertNoSearch | airtable/airpandas.py:328-348 | a row insert never searches (it does not resolve the record id) |
| AirRow.Update | airtable/airpandas.py:350-372 | resolves the record id (its exceptions propagate), then robust or plain update; a reply with an id is returned and bound to the row, a reply without one returns None, and a plain update's refusal raises |
| AirRow.Delete | airtable/airpandas.py:375-383 | asserts a table, resolves the record id, then deletes exactly that id |
| AirRow.RobustUpsertOfKnownRowCreatesNothing | airtable/airpandas.py:385-409 | a robust row upsert whose record id resolves never inserts |
| AirRow.Upsert | airtable/airpandas.py:385-409 | asserts a table and resolves the id, any exception counting as None; a resolved id is updated first, an unresolved one is inserted first; a robust upsert of a resolved id returns and inserts nothing; a plain upsert of an unresolved id is exactly one insert |
| AirRow.UpsertWithAmbiguousKeyInserts | airtable/airpandas.py:385-409 | when several records share the row's key value, the search yields no id, so the plain row upsert is exactly an insert and the robust one exactly robust insert |
| AirRow.KnownIdWritesNoSearch | airtable/airpandas.py:278-290 | a row with a hand-set record id is updated, deleted or upserted without any search |
| AirRow.PulledRowNeedsNoSearch | airtable/airpandas.py:597-604 | a row of a pulled frame, labelled by a rec-shaped record id, resolves to that id with no request |
| Codec.RecordToSeries | airtable/airpandas.py:597-598 | the Series is named by the record id and holds exactly the record's fields |
| AirRow.RecordRoundTrip | airtable/airpandas.py:597-598 | a record read as a row gives back exactly the record's fields as the row's fields, unchanged by coercion when the API accepted them, and a rec-shaped id is found again from the row's name with no request |
| Codec.RecordsToFrame | airtable/airpandas.py:600-604 | one row per record in record order, each labelled by its record id, under the index name `record_id`, with distinct columns |
| Codec.Columns | airtable/airpandas.py:600-604 | the frame's columns are exactly the field names of all records, each once, the first record's first field first |
| Codec.ColumnsInFirstSeenOrder | airtable/airpandas.py:600-604 | the columns stand in the order in which their names first occur, record by record and field by field |
| Codec.PulledRowHoldsRecord | airtable/airpandas.py:597-604 | reading row i of a pulled frame gives record i's own fields, NaN in columns only other records have, and nothing else |
| AirDataFrame.PrimaryKey | airtable/airpandas.py:453-463 | the key set on the accessor wins, else the table's key, else (no table, or its key raises) the frame's first column, and IndexError for a frame without columns |
| AirDataFrame.SelectColumns | airtable/airpandas.py:504-505 | `df.loc[:, columns]` fails with KeyError exactly when a listed column is absent; otherwise the columns are the listed ones in the listed order and the labels are kept |
| AirDataFrame.ColumnSelectionKeepsCells | airtable/airpandas.py:504-505 | after column selection every row holds the same value under each listed column |
| AirDataFrame.SelectRows | airtable/airpandas.py:506-507 | `df.loc[index, :]` fails with KeyError exactly when a listed label is absent; otherwise it holds exactly the rows with the listed labels, and with distinct labels one row per listed label in the listed order |
| AirDataFrame.Narrow | airtable/airpandas.py:503-507 | KeyError exactly when a listed column or label is absent; otherwise column selection, then row selection on its result; without either the frame is unchanged |
| AirDataFrame.PrepDf | airtable/airpandas.py:490-508 | asserts a table (the argument wins over the bound one); the key argument is used when given; otherwise the accessor's key is computed, even for a frame indexed by record id, and its error is raised; then the narrowed frame |
| AirDataFrame.BindRow | airtable/airpandas.py:523-528 | for update, upsert and delete on a frame indexed by `record_id` the row's record id is its label; otherwise the primary key is set and the id is left unset |
| AirDataFrame.RowWriteRequests | airtable/airpandas.py:523-593 | a row write searches only for a row whose record id is unset, never when inserting, and a delete of a row with a set id is one delete of that id |
| AirDataFrame.PushRows | airtable/airpandas.py:523-531 | one result per row, the first being the first row's write |
| AirDataFrame.PushRowsSnoc | airtable/airpandas.py:523-531 | pushing one more row pushes the others, then, unless that raised, writes the new row on the table they left and appends its result |
| AirDataFrame.PushRowsInOrder | airtable/airpandas.py:523-531 | result i is row i's write on the table the rows before it left; a loop that raised stopped at the first row whose write raised, with its exception and nothing written after |
| AirDataFrame.Push | airtable/airpandas.py:510-595 | a failing preparation makes no request; otherwise one result per prepared row; insert never searches, and neither does update, upsert or delete on a frame indexed by `record_id` whose rows all have a label |
| AirDataFrame.PushNoSearch | airtable/airpandas.py:510-595 | the loop searches nothing when the mode is insert, or when every row is found by its record-id label |
| AirDataFrame.DeleteByRecordId | airtable/airpandas.py:576-595 | deleting a frame indexed by record id issues one delete per row label, in frame order, each accepted but the last one made when the loop stopped early |
| AirDataFrame.PulledFrameNeedsNoSearch | airtable/airpandas.py:597-604 | a frame pulled from the table is written back without any primary-key search, whatever the mode and whichever rows and columns are chosen |
| Attachments.AttachmentList | airtable/airpandas.py:668-675 | the new list is the field's current attachments followed by the url, or just the url when the field is empty or not kept; any other value has no `append` |
| Attachments.UploadAttachment | airtable/airpandas.py:668-679 | reads the record when keeping old attachments (an unknown record fails with no write), then one update that sets only this field to the extended list |
| Attachments.TwoUploadsKeepBoth | airtable/airpandas.py:668-679 | two kept uploads leave the old attachments followed by both urls in order |
| ListFields.UnpackListField | airtable/airpandas.py:815-825 | a one-element value gives its element; a longer list of strings is joined with the delimiter; any other list, and an attachment, comes back whole; a string of another length is joined character by character; a value without a length raises TypeError |
| ListFields.UnpackString | airtable/airpandas.py:815-825 | a string of two or more characters comes back unchanged with an empty delimiter, and with a one-character delimiter it does not contain it splits back into its characters |
| ListFields.SplitJoin | airtable/airpandas.py:822-823 | joining parts that do not contain the separator and splitting again gives back the parts |
| ListFields.UnpackThenSplit | airtable/airpandas.py:815-825 | a lookup list of two or more strings unpacks to one string that splits back into those strings |
| SeriesUpload.UploadSeries | airtable/airpandas.py:726-810 | values are coerced; a row without the key raises KeyError before any request; otherwise the first request is the search for the coerced key value; the only exceptions are a refusal or KeyError |
| SeriesUpload.AbsentRowIsCreated | airtable/airpandas.py:742-791 | when no record holds the key, the request after the search is one typecast insert of the coerced row; when accepted, the call returns and a new record holds exactly the coerced row |
| SeriesUpload.PresentRowIsSkipped | airtable/airpandas.py:748-758 | with overwrite off, a matched row costs only the search and the call returns normally |
| SeriesUpload.OverwriteTargetsFirstMatch | airtable/airpandas.py:759-766 | with overwrite on, every field goes to the first match in table order, no record is created and no other record changes |
| SeriesUpload.Overwrite | airtable/airpandas.py:759-781 | one typecast bulk update of the match, then per-field updates only when that was refused and retrying is on; refusals are swallowed and no record is added or searched; per-field updates follow only a refused bulk update with retrying on, and an accepted bulk update merges every field into the match |
| SeriesUpload.Create | airtable/airpandas.py:784-795 | one typecast bulk insert; a refusal raises only when retrying is on and the fallback fails |
| SeriesUpload.CreateThenFill | airtable/airpandas.py:793-810 | inserts the key alone (a refusal raises); then one search for the key, whose refusal raises; an empty match raises KeyError; otherwise one single-field update per field to the first match, and the call returns |
| SeriesUpload.FillTargetsCreatedRecord | airtable/airpandas.py:793-810 | when no record held the key, `match` finds exactly the record just created, the per-field updates go to it, and every older record is untouched |
| SeriesUpload.NoOverwriteKeepsRecords | airtable/airpandas.py:726-810 | with overwrite off, no record that existed before the upload changes |
| SeriesUpload.UploadFrame | airtable/airpandas.py:706-722 | no rows make no request; the only exceptions are a refusal or KeyError |
| SeriesUpload.UploadRowsSnoc | airtable/airpandas.py:706-722 | uploading one more row uploads the others, then, unless that raised, the new row to the table they left |
| SeriesUpload.UploadFrameInOrder | airtable/airpandas.py:706-722 | when the upload returns, every row's upload, on the table the rows before it left, returned; when it raises, it raised at the first row whose upload raised, and nothing was sent after |
| SeriesUpload.FrameNoOverwriteKeepsRecords | airtable/airpandas.py:706-722 | uploading a frame with overwrite off never changes a record that existed before |

## Left out

- The Airtable REST client (`get_all`, `get`, `search`, `match`, `insert`, `update`, `delete`) is
  not part of this model. It is the `Remote` oracle. `match` is modelled as the first result of
  a search, and `{}` when there is none.
- Which requests the service refuses, and which id an insert gets, are left to the oracle.
- Remote.Insert: the service stores the fields exactly as sent. The conversion Airtable makes
  under `typecast=True` (a string into a number or a select option) is not modelled, so
  `PandasAirtable.RobustInsert`, `PandasAirtable.UpdateOneFieldAtATime`,
  `SeriesUpload.FillTargetsCreatedRecord` and the other stored-record contracts hold for this
  verbatim store.
- Remote.Update: as for insert, the accepted fields are merged verbatim.
- Remote.Search: a record matches only when its stored value equals the searched value exactly.
  Airtable's formula comparison is not modelled. In particular `get_record_id` searches with
  the row's raw value (airtable/airpandas.py:313), and in the model an int64 key never finds a
  record that stores the same number as an int. `PandasAirtable.GetRecordIdUnique` holds under
  this exact matching.
- Remote.GetAll: reading the whole table cannot fail and is not logged. The real `get_all`
  makes paged requests that could fail; `PandasAirtable.TablePrimaryKey` reads the table this
  way.
- AirRow.Update, AirRow.Delete, AirRow.Upsert: one `Remote.Store` stands for every table. When
  the `airtable` argument names a different table from the bound one, the source resolves the
  record id in the bound table and writes to the argument's table. The model resolves and
  writes in the same store, so it says nothing about writes that span two tables.
- AirDataFrame.Push: likewise, the table passed in and the bound table are one store.
- Remote.Update, Remote.Delete: an id that is None or an int is logged as a request the
  service refused. The real client fails before sending anything, so in the model such a call
  counts as sent and refused; a robust update of an unresolved row, for instance, logs one
  refused bulk update and one refused update per field.
- The global `context_table`, `__enter__` and `__exit__` are out: the table is an explicit
  parameter, as if no context were active.
- Caching in `_df` and `_primary_key` is out. A table's primary key is read from the table's
  current contents at each use.
- `convert_dtypes` in `AirRow.fields` is out, as is real floating-point NaN. NaN is the `Missing`
  tag of `Values.Value`.
- `Series.to_dict` is out: a row is given as a dictionary with distinct keys, and frames with
  duplicate columns are excluded (`Codec.WellFormed`).
- The S3 half of both attachment uploads is out: client creation, file upload, presigned URLs,
  and local and S3 file deletion. The signed url is a parameter.
- Attachments.UploadAttachment: the update is sent without `typecast`, taking the client's
  default to be False.
- Read-only accessors and helpers are out: `to_df`, `get_all_flat`, `get`, `get_many`, `look`,
  `get_row`, `_reconstruct`, `table_name`, `__repr__`. They only read, or wrap reads in pandas
  objects.
- The `AirtableAttachment` class (including `from_matplotlib_figure`) is out: file and figure
  I/O.
- Credential retrieval in `AuthenticatedPandasAirtable` is out: secret-store plumbing.
- `print` diagnostics are out: the printed warnings have no counterpart.
- AirDataFrame.SelectColumns: only a list of column names is modelled. Slices, booleans and
  single labels given as `columns` or `index` are out.
- AirDataFrame.SelectRows: only a list of labels is modelled, as above.
- ListFields.UnpackListField: the only dict it sees is an attachment `{'url': ...}`, which comes
  back whole. Other dicts and other sized containers are out.
- AirDataFrame.DeleteByRecordId: stated for frames whose rows all have a label, because a None
  label would trigger a search.

=== FILE: airdataframe.dfy ===
/** The `airtable` accessor of a pandas DataFrame (`AirDataFrame`): choosing the primary key,
    narrowing the frame to the rows and columns asked for, and writing it row by row. */
module AirDataFrame {
  import opened Outcomes
  import opened Values
  import opened Dicts
  import opened Remote
  import opened Codec
  import opened PandasAirtable
  import AirRow

  /** An accessor: the frame, the table it is bound to and the primary key set on it by hand. */
  datatype Binding = Binding(df: Frame, table: Option<Handle>, primaryKey: Option<string>)

  /** The optional arguments every write takes: `primary_key`, `airtable`, `index`, `columns`. */
  datatype Selection = Selection(primaryKey: Option<string>, airtable: Option<Handle>,
                                 index: Option<seq<Name>>, columns: Option<seq<string>>)

  /** What `_prep_df` hands to a write: the table, the primary key and the narrowed frame. */
  datatype Prep = Prep(table: Handle, key: string, df: Frame)

  /** The four writes; `robust` is passed through to the row (where insert ignores it). */
  datatype Mode = UpdateMode(robust: bool) | InsertMode(robust: bool) | UpsertMode(robust: bool) | DeleteMode

  /** `AirDataFrame.primary_key`: the key set on the accessor; else the bound table's key, where
      any exception from that (no table, an empty table) falls back to the frame's first
      column, which raises IndexError when the frame has none. */
  function PrimaryKey(b: Binding, st: Store): (r: Result<string>)
    ensures b.primaryKey.Some? ==> r == Ok(b.primaryKey.value)
    ensures b.primaryKey.None? && b.table.Some? && TablePrimaryKey(b.table.value, st).Ok? ==>
              r == TablePrimaryKey(b.table.value, st)
    ensures b.primaryKey.None? && (b.table.None? || TablePrimaryKey(b.table.value, st).Err?) ==>
              r == if b.df.columns == [] then Err(IndexError) else Ok(b.df.columns[0])
  {
    if b.primaryKey.Some? then Ok(b.primaryKey.value)
    else if b.table.Some? && TablePrimaryKey(b.table.value, st).Ok? then TablePrimaryKey(b.table.value, st)
    else if b.df.columns == [] then Err(IndexError)
    else Ok(b.df.columns[0])
  }

  /** The position of `c` in `cs`. */
  function IndexOf(cs: seq<string>, c: string): (j: nat)
    requires c in cs
    ensures j < |cs| && cs[j] == c
  {
    if cs[0] == c then 0 else IndexOf(cs[1..], c) + 1
  }

  /** `df.loc[:, columns]` as the rows then see it: the listed columns in the order listed (a
      repeated name counts once, since the row's dict keeps one entry per key); a name the
      frame lacks raises KeyError. */
  function SelectColumns(f: Frame, names: seq<string>): (r: Result<Frame>)
    requires WellFormed(f)
    ensures r.Err? <==> exists n :: n in names && n !in f.columns
    ensures r.Err? ==> r.error == KeyError
    ensures r.Ok? ==> && WellFormed(r.value)
                      && r.value.indexName == f.indexName
                      && (forall c :: c in r.value.columns <==> c in names)
                      && |r.value.lines| == |f.lines|
                      && forall i :: 0 <= i < |f.lines| ==> r.value.lines[i].name == f.lines[i].name
    ensures r.Ok? && Unique(names) ==> r.value.columns == names
  {
    if exists n :: n in names && n !in f.columns then Err(KeyError)
    else
      var cs := AddNew([], names);
      assert Unique(names) ==> cs == names by {
        if Unique(names) {
          AddNewFresh([], names);
        }
      }
      Ok(Frame(f.indexName, cs,
               seq(|f.lines|, i requires 0 <= i < |f.lines| =>
                 Line(f.lines[i].name, seq(|cs|, j requires 0 <= j < |cs| => f.lines[i].values[IndexOf(f.columns, cs[j])])))))
  }

  /** After a column selection every row holds the same value under each listed column and
      nothing under any other. */
  lemma ColumnSelectionKeepsCells(f: Frame, names: seq<string>, i: nat, k: string)
    requires WellFormed(f) && SelectColumns(f, names).Ok? && i < |f.lines|
    ensures var g := SelectColumns(f, names).value;
            Get(RowSeries(g, i).data, k) == if k in names then Get(RowSeries(f, i).data, k) else None
  {
    var g := SelectColumns(f, names).value;
    if k in names {
      var j := IndexOf(g.columns, k);
      GetZip(g.columns, g.lines[i].values, j);
      GetZip(f.columns, f.lines[i].values, IndexOf(f.columns, k));
    }
  }

  /** The lines labelled `l`, in frame order. */
  function Named(lines: seq<Line>, l: Name): (r: seq<Line>)
    ensures forall x :: x in r <==> x in lines && x.name == l
  {
    if lines == [] then []
    else
      assert lines == [lines[0]] + lines[1..];
      (if lines[0].name == l then [lines[0]] else []) + Named(lines[1..], l)
  }

  /** For each label of `index` in turn, the lines carrying it. */
  function LinesFor(lines: seq<Line>, index: seq<Name>): (r: seq<Line>)
    ensures forall x :: x in r <==> x in lines && x.name in index
  {
    if index == [] then []
    else
      assert index == [index[0]] + index[1..];
      Named(lines, index[0]) + LinesFor(lines, index[1..])
  }

  /** No two lines share a label. */
  predicate DistinctNames(lines: seq<Line>) {
    forall i, j :: 0 <= i < j < |lines| ==> lines[i].name != lines[j].name
  }

  /** A label no line carries picks out nothing. */
  lemma {:induction false} NamedAbsent(lines: seq<Line>, l: Name)
    requires forall k :: 0 <= k < |lines| ==> lines[k].name != l
    ensures Named(lines, l) == []
  {
    if lines != [] {
      forall k | 0 <= k < |lines| - 1
        ensures lines[1..][k].name != l
      {
        assert lines[1..][k] == lines[k + 1];
      }
      NamedAbsent(lines[1..], l);
    }
  }

  /** Among lines with distinct labels, a present label picks out exactly one line. */
  lemma {:induction false} NamedSingle(lines: seq<Line>, l: Name)
    requires DistinctNames(lines)
    requires exists i :: 0 <= i < |lines| && lines[i].name == l
    ensures |Named(lines, l)| == 1 && Named(lines, l)[0].name == l
  {
    if lines[0].name == l {
      forall k | 0 <= k < |lines| - 1
        ensures lines[1..][k].name != l
      {
        assert lines[1..][k] == lines[k + 1];
      }
      NamedAbsent(lines[1..], l);
    } else {
      var i :| 0 <= i < |lines| && lines[i].name == l;
      assert lines[1..][i - 1].name == l;
      assert DistinctNames(lines[1..]) by {
        forall a, b | 0 <= a < b < |lines| - 1
          ensures lines[1..][a].name != lines[1..][b].name
        {
          assert lines[1..][a] == lines[a + 1] && lines[1..][b] == lines[b + 1];
        }
      }
      NamedSingle(lines[1..], l);
    }
  }

  /** Every label of `index` is carried by some line. */
  predicate AllPresent(lines: seq<Line>, index: seq<Name>) {
    forall j :: 0 <= j < |index| ==> exists i :: 0 <= i < |lines| && lines[i].name == index[j]
  }

  lemma AllPresentTail(lines: seq<Line>, index: seq<Name>)
    requires index != [] && AllPresent(lines, index)
    ensures AllPresent(lines, index[1..])
    ensures exists i :: 0 <= i < |lines| && lines[i].name == index[0]
  {
    assert 0 < |index|;
    assert forall j :: 0 <= j < |index| ==> exists i :: 0 <= i < |lines| && lines[i].name == index[j];
    var i0 :| 0 <= i0 < |lines| && lines[i0].name == index[0];
    forall j | 0 <= j < |index| - 1
      ensures exists i :: 0 <= i < |lines| && lines[i].name == index[1..][j]
    {
      var i :| 0 <= i < |lines| && lines[i].name == index[j + 1];
      assert index[1..][j] == index[j + 1];
    }
  }

  /** Among lines with distinct labels, selecting present labels gives one line per label, in
      the order the labels are listed. */
  lemma {:induction false} LinesForEach(lines: seq<Line>, index: seq<Name>)
    requires DistinctNames(lines) && AllPresent(lines, index)
    ensures |LinesFor(lines, index)| == |index|
    ensures forall j :: 0 <= j < |index| ==> LinesFor(lines, index)[j].name == index[j]
  {
    if index != [] {
      AllPresentTail(lines, index);
      NamedSingle(lines, index[0]);
      LinesForEach(lines, index[1..]);
      ConsNames(Named(lines, index[0]), LinesFor(lines, index[1..]), index);
    }
  }

  lemma ConsNames(head: seq<Line>, tail: seq<Line>, index: seq<Name>)
    requires index != [] && |head| == 1 && head[0].name == index[0]
    requires |tail| == |index| - 1 && forall j :: 0 <= j < |tail| ==> tail[j].name == index[1..][j]
    ensures |head + tail| == |index|
    ensures forall j :: 0 <= j < |index| ==> (head + tail)[j].name == index[j]
  {
    forall j | 1 <= j < |index|
      ensures (head + tail)[j].name == index[j]
    {
      assert (head + tail)[j] == tail[j - 1];
      assert index[1..][j - 1] == index[j];
    }
  }

  /** `df.loc[index, :]` with a list of labels: the rows of each label in turn; a label the
      frame lacks raises KeyError. */
  function SelectRows(f: Frame, index: seq<Name>): (r: Result<Frame>)
    requires WellFormed(f)
    ensures r.Err? <==> exists l :: l in index && l !in Labels(f)
    ensures r.Err? ==> r.error == KeyError
    ensures r.Ok? ==> && WellFormed(r.value)
                      && r.value.indexName == f.indexName && r.value.columns == f.columns
                      && (forall x :: x in r.value.lines <==> x in f.lines && x.name in index)
    ensures r.Ok? && DistinctNames(f.lines) ==>
              && |r.value.lines| == |index|
              && forall j :: 0 <= j < |index| ==> r.value.lines[j].name == index[j]
  {
    if exists l :: l in index && l !in Labels(f) then Err(KeyError)
    else
      var g := Frame(f.indexName, f.columns, LinesFor(f.lines, index));
      assert forall i :: 0 <= i < |g.lines| ==> g.lines[i] in f.lines;
      assert DistinctNames(f.lines) ==> |g.lines| == |index| && forall j :: 0 <= j < |index| ==> g.lines[j].name == index[j] by {
        if DistinctNames(f.lines) {
          forall j | 0 <= j < |index|
            ensures exists i :: 0 <= i < |f.lines| && f.lines[i].name == index[j]
          {
            assert index[j] in index;
            var i :| 0 <= i < |f.lines| && Labels(f)[i] == index[j];
          }
          LinesForEach(f.lines, index);
        }
      }
      Ok(g)
  }

  /** The column selection, then the row selection, of `_prep_df`. */
  function Narrow(f: Frame, index: Option<seq<Name>>, columns: Option<seq<string>>): (r: Result<Frame>)
    requires WellFormed(f)
    ensures r.Ok? ==> && WellFormed(r.value)
                      && r.value.indexName == f.indexName
                      && (columns.None? ==> r.value.columns == f.columns)
                      && (index.None? ==> |r.value.lines| == |f.lines|)
                      && forall x :: x in r.value.lines ==> x.name in Labels(f)
    ensures r.Err? ==> r.error == KeyError
    ensures r.Err? <==> || (columns.Some? && exists n :: n in columns.value && n !in f.columns)
                        || (index.Some? && exists l :: l in index.value && l !in Labels(f))
    ensures columns.None? && index.None? ==> r == Ok(f)
    ensures columns.Some? && index.None? ==> r == SelectColumns(f, columns.value)
    ensures columns.None? && index.Some? ==> r == SelectRows(f, index.value)
    ensures columns.Some? && index.Some? && SelectColumns(f, columns.value).Ok? ==>
              r == SelectRows(SelectColumns(f, columns.value).value, index.value)
  {
    var byColumns := if columns.Some? then SelectColumns(f, columns.value) else Ok(f);
    if byColumns.Err? then Err(byColumns.error)
    else
      var g := byColumns.value;
      assert Labels(g) == Labels(f);
      var byRows := if index.Some? then SelectRows(g, index.value) else Ok(g);
      if byRows.Ok? then
        assert forall x :: x in byRows.value.lines ==> x.name in Labels(g);
        byRows
      else byRows
  }

  /** `_prep_df`: the table (asserted present), the primary key (the argument when given, else
      the accessor's key, computed even when the rows will be found by record id), then the
      column and the row selection. */
  function PrepDf(b: Binding, st: Store, sel: Selection): (r: Result<Prep>)
    requires WellFormed(b.df)
    ensures sel.airtable.None? && b.table.None? ==> r == Err(AssertionError)
    ensures r.Ok? ==> && r.value.table == (if sel.airtable.Some? then sel.airtable.value else b.table.value)
                      && (sel.primaryKey.Some? ==> r.value.key == sel.primaryKey.value)
                      && (sel.primaryKey.None? ==> PrimaryKey(b, st) == Ok(r.value.key))
                      && Narrow(b.df, sel.index, sel.columns) == Ok(r.value.df)
    ensures r.Err? ==> r.error in {AssertionError, IndexError, KeyError}
    ensures sel.primaryKey.Some? && (sel.airtable.Some? || b.table.Some?) ==>
              (r.Ok? <==> Narrow(b.df, sel.index, sel.columns).Ok?)
    ensures sel.primaryKey.None? && (sel.airtable.Some? || b.table.Some?) && PrimaryKey(b, st).Err? ==>
              r == Err(PrimaryKey(b, st).error)
  {
    var table := if sel.airtable.Some? then sel.airtable else b.table;
    if table.None? then Err(AssertionError)
    else
      var key := if sel.primaryKey.Some? then Ok(sel.primaryKey.value) else PrimaryKey(b, st);
      if key.Err? then Err(key.error)
      else
        var f := Narrow(b.df, sel.index, sel.columns);
        if f.Err? then Err(f.error) else Ok(Prep(table.value, key.value, f.value))
  }

  /** Whether the rows are found by their labels: every write but insert does so when the
      frame's index is named `record_id`. */
  predicate ById(p: Prep, mode: Mode) {
    !mode.InsertMode? && p.df.indexName == Some(RecordIdIndex)
  }

  /** The row accessor the loop prepares for row `i`: bound to the table, with the row label
      as its record id when the rows are found by label, and the primary key otherwise. */
  function BindRow(p: Prep, i: nat, mode: Mode): (row: AirRow.Row)
    requires WellFormed(p.df) && i < |p.df.lines|
    ensures row.series.name == p.df.lines[i].name && row.table == Some(p.table)
    ensures ById(p, mode) ==> row.recordId == p.df.lines[i].name && row.primaryKey.None?
    ensures !ById(p, mode) ==> row.recordId == NoName && row.primaryKey == Some(p.key)
  {
    if ById(p, mode) then AirRow.Row(RowSeries(p.df, i), Some(p.table), p.df.lines[i].name, None)
    else AirRow.Row(RowSeries(p.df, i), Some(p.table), NoName, Some(p.key))
  }

  /** One iteration: the row write of the mode, with what it returns as the list element
      (None only where a row update swallowed its failure). */
  function RowWrite(svc: Service, st: Store, row: AirRow.Row, mode: Mode, typecast: bool): (s: Step<Option<Reply>>)
    ensures st.log <= s.store.log
    ensures s.result.Ok? && !mode.UpdateMode? ==> s.result.value.Some?
  {
    match mode
    case UpdateMode(robust) =>
      var d := AirRow.Update(svc, st, row, None, None, robust, typecast);
      Step(d.result, d.store)
    case InsertMode(robust) =>
      var d := AirRow.Insert(svc, st, row, None, None, robust, typecast);
      Step(if d.result.Ok? then Ok(Some(d.result.value)) else Err(d.result.error), d.store)
    case UpsertMode(robust) =>
      var s := AirRow.Upsert(svc, st, row, None, None, robust, typecast);
      Step(if s.result.Ok? then Ok(Some(s.result.value)) else Err(s.result.error), s.store)
    case DeleteMode =>
      var s := AirRow.Delete(svc, st, row, None);
      Step(if s.result.Ok? then Ok(Some(s.result.value)) else Err(s.result.error), s.store)
  }

  /** A row write searches the table only to resolve an unset record id, which insert never
      does; a delete of a row with its id set is that one delete request. */
  lemma RowWriteRequests(svc: Service, st: Store, row: AirRow.Row, mode: Mode, typecast: bool)
    ensures var s := RowWrite(svc, st, row, mode, typecast);
            && (mode.InsertMode? || row.recordId != NoName ==> NoSearch(Since(st, s.store)))
            && (mode.DeleteMode? && row.recordId != NoName && row.table.Some? ==>
                  && Since(st, s.store) == [Event(DeleteCall(row.recordId), s.result.Ok?)]
                  && (s.result.Ok? ==> row.recordId.StrName? && s.result.value == Some(DeletedReply(row.recordId.s))))
  {
    var robust := if mode.DeleteMode? then false else mode.robust;
    if mode.DeleteMode? {
      var d := AirRow.Delete(svc, st, row, None);
      assert RowWrite(svc, st, row, mode, typecast)
          == Step(if d.result.Ok? then Ok(Some(d.result.value)) else Err(d.result.error), d.store);
    }
    if mode.InsertMode? {
      AirRow.InsertNoSearch(svc, st, row, None, None, robust, typecast);
    }
    if row.recordId != NoName {
      assert AirRow.RecordId(svc, st, row) == Step(Ok(row.recordId), st);
      AirRow.KnownIdWritesNoSearch(svc, st, row, None, None, robust, typecast);
    }
  }

  /** The row write a loop performs: from the table before and the prepared accessor, the
      list element and the table after. */
  type Writer = (Store, AirRow.Row) -> Step<Option<Reply>>

  /** A row write only ever adds requests to the log. */
  ghost predicate Appends(write: Writer) {
    forall st: Store, row: AirRow.Row :: st.log <= write(st, row).store.log
  }

  /** A row write searches only for a row whose record id is unset, and never when inserting. */
  ghost predicate SearchesOnlyUnset(write: Writer, mode: Mode)
    requires Appends(write)
  {
    forall st: Store, row: AirRow.Row :: (mode.InsertMode? || row.recordId != NoName) ==> NoSearch(Since(st, write(st, row).store))
  }

  /** A row write of a bound row whose record id is set is exactly one delete of that id. */
  ghost predicate DeletesById(write: Writer)
    requires Appends(write)
  {
    forall st: Store, row: AirRow.Row :: row.recordId != NoName && row.table.Some? ==>
      Since(st, write(st, row).store) == [Event(DeleteCall(row.recordId), write(st, row).result.Ok?)]
  }

  /** The loop body of the four writes: the row write of the mode. */
  function RowWriter(svc: Service, mode: Mode, typecast: bool): (write: Writer)
    ensures Appends(write)
    ensures SearchesOnlyUnset(write, mode)
    ensures mode.DeleteMode? ==> DeletesById(write)
  {
    var write := (st, row) => RowWrite(svc, st, row, mode, typecast);
    assert Appends(write) by {
      forall st: Store, row: AirRow.Row
        ensures st.log <= write(st, row).store.log
      {
        assert write(st, row) == RowWrite(svc, st, row, mode, typecast);
      }
    }
    forall st: Store, row: AirRow.Row
      ensures var s := write(st, row);
              && (mode.InsertMode? || row.recordId != NoName ==> NoSearch(Since(st, s.store)))
              && (mode.DeleteMode? && row.recordId != NoName && row.table.Some? ==>
                    Since(st, s.store) == [Event(DeleteCall(row.recordId), s.result.Ok?)])
    {
      RowWriteRequests(svc, st, row, mode, typecast);
    }
    write
  }

  /** The row accessors of the loop, one per row in frame order. */
  function BindRows(p: Prep, mode: Mode): (rows: seq<AirRow.Row>)
    requires WellFormed(p.df)
    ensures |rows| == |p.df.lines|
    ensures forall i :: 0 <= i < |rows| ==> rows[i] == BindRow(p, i, mode)
  {
    seq(|p.df.lines|, i requires 0 <= i < |p.df.lines| => BindRow(p, i, mode))
  }

  /** The loop over `df.iterrows()`: one row write after another; the first exception ends the
      loop and propagates, otherwise the result holds one element per row, in order. */
  function PushRows(write: Writer, st: Store, rows: seq<AirRow.Row>): (s: Step<seq<Option<Reply>>>)
    requires Appends(write)
    ensures st.log <= s.store.log
    ensures s.result.Ok? ==> |s.result.value| == |rows|
    ensures s.result.Ok? && rows != [] ==>
              write(st, rows[0]).result.Ok? && s.result.value[0] == write(st, rows[0]).result.value
    decreases |rows|
  {
    if rows == [] then Step(Ok([]), st)
    else
      var w := write(st, rows[0]);
      if w.result.Err? then Step(Err(w.result.error), w.store)
      else
        var rest := PushRows(write, w.store, rows[1..]);
        if rest.result.Err? then rest else Step(Ok([w.result.value] + rest.result.value), rest.store)
  }

  /** The loop as a left fold: pushing one more row first pushes the others, then, unless that
      raised, writes the new row on the table they left behind and appends its reply. */
  lemma {:induction false} PushRowsSnoc(write: Writer, st: Store, rows: seq<AirRow.Row>, row: AirRow.Row)
    requires Appends(write)
    ensures PushRows(write, st, rows + [row]) ==
              var p := PushRows(write, st, rows);
              if p.result.Err? then p
              else
                var w := write(p.store, row);
                if w.result.Err? then Step(Err(w.result.error), w.store)
                else Step(Ok(p.result.value + [w.result.value]), w.store)
    decreases |rows|
  {
    if rows == [] {
      assert [] + [row] == [row];
      assert [row][1..] == [];
      var w := write(st, row);
      if w.result.Ok? {
        assert [w.result.value] + [] == [] + [w.result.value];
      }
    } else {
      assert (rows + [row])[0] == rows[0];
      assert (rows + [row])[1..] == rows[1..] + [row];
      var w := write(st, rows[0]);
      if w.result.Ok? {
        PushRowsSnoc(write, w.store, rows[1..], row);
        var rest := PushRows(write, w.store, rows[1..]);
        if rest.result.Ok? && write(rest.store, row).result.Ok? {
          assert [w.result.value] + (rest.result.value + [write(rest.store, row).result.value])
              == ([w.result.value] + rest.result.value) + [write(rest.store, row).result.value];
        }
      }
    }
  }

  /** Reply `i` of a finished loop is row `i`'s write on the table the rows before it left; a loop
      that raised stopped at the first row whose write raised, with that row's exception and
      nothing written after it. */
  lemma {:induction false} PushRowsInOrder(write: Writer, st: Store, rows: seq<AirRow.Row>)
    requires Appends(write)
    ensures var s := PushRows(write, st, rows);
            s.result.Ok? ==>
              forall i :: 0 <= i < |rows| ==>
                && PushRows(write, st, rows[..i]).result.Ok?
                && write(PushRows(write, st, rows[..i]).store, rows[i]).result == Ok(s.result.value[i])
    ensures var s := PushRows(write, st, rows);
            s.result.Err? ==>
              exists i :: 0 <= i < |rows| &&
                var p := PushRows(write, st, rows[..i]);
                var w := write(p.store, rows[i]);
                && p.result.Ok? && w.result.Err?
                && s == Step(Err(w.result.error), w.store)
    decreases |rows|
  {
    if rows != [] {
      var n := |rows| - 1;
      var init := rows[..n];
      assert rows == init + [rows[n]];
      PushRowsSnoc(write, st, init, rows[n]);
      PushRowsInOrder(write, st, init);
      assert forall i :: 0 <= i < n ==> init[..i] == rows[..i] && init[i] == rows[i];
    }
  }

  /** Every label of the frame names something (no row is labelled None). */
  predicate AllNamed(f: Frame) {
    forall i :: 0 <= i < |f.lines| ==> f.lines[i].name != NoName
  }

  /** Every row write of the loop is one that searches nothing. */
  predicate NoLookups(rows: seq<AirRow.Row>, mode: Mode) {
    forall i :: 0 <= i < |rows| ==> mode.InsertMode? || rows[i].recordId != NoName
  }

  /** The loop searches the table for no row when none of its row writes needs a search. */
  lemma {:induction false} PushRowsNoSearch(write: Writer, st: Store, rows: seq<AirRow.Row>, mode: Mode)
    requires Appends(write) && SearchesOnlyUnset(write, mode) && NoLookups(rows, mode)
    ensures NoSearch(Since(st, PushRows(write, st, rows).store))
    decreases |rows|
  {
    if rows != [] {
      var w := write(st, rows[0]);
      assert NoSearch(Since(st, w.store));
      if w.result.Ok? {
        var rest := PushRows(write, w.store, rows[1..]);
        assert NoLookups(rows[1..], mode) by {
          forall i | 0 <= i < |rows[1..]|
            ensures mode.InsertMode? || rows[1..][i].recordId != NoName
          {
            assert rows[1..][i] == rows[i + 1];
          }
        }
        PushRowsNoSearch(write, w.store, rows[1..], mode);
        SinceSplit(st, w.store, rest.store);
        NoSearchJoin(Since(st, w.store), Since(w.store, rest.store));
      }
    }
  }

  /** One delete per id, in order, each accepted but the last; when the loop finished, one for
      every id and all accepted; otherwise it stopped at a refused one. */
  predicate DeletesInOrder(events: seq<Event>, ids: seq<Name>, finished: bool) {
    && |events| <= |ids|
    && (forall j :: 0 <= j < |events| ==> events[j].call == DeleteCall(ids[j]))
    && (forall j :: 0 <= j < |events| - 1 ==> events[j].ok)
    && (finished ==> |events| == |ids| && forall j :: 0 <= j < |events| ==> events[j].ok)
    && (!finished ==> events != [] && !events[|events| - 1].ok)
  }

  /** Rows bound to a table whose record ids are `ids`, none of them unset. */
  predicate BoundWithIds(rows: seq<AirRow.Row>, ids: seq<Name>) {
    && |rows| == |ids|
    && forall i :: 0 <= i < |rows| ==> rows[i].recordId == ids[i] && ids[i] != NoName && rows[i].table.Some?
  }

  lemma {:induction false} PushRowsDeletesInOrder(write: Writer, st: Store, rows: seq<AirRow.Row>, ids: seq<Name>)
    requires Appends(write) && DeletesById(write) && BoundWithIds(rows, ids)
    ensures var s := PushRows(write, st, rows);
            DeletesInOrder(Since(st, s.store), ids, s.result.Ok?)
    decreases |rows|
  {
    if rows != [] {
      var w := write(st, rows[0]);
      var e := Event(DeleteCall(ids[0]), w.result.Ok?);
      assert Since(st, w.store) == [e];
      if w.result.Ok? {
        var rest := PushRows(write, w.store, rows[1..]);
        assert BoundWithIds(rows[1..], ids[1..]) by {
          forall i | 0 <= i < |rows[1..]|
            ensures rows[1..][i] == rows[i + 1] && ids[1..][i] == ids[i + 1]
          {
          }
        }
        PushRowsDeletesInOrder(write, w.store, rows[1..], ids[1..]);
        SinceSplit(st, w.store, rest.store);
        DeletesInOrderCons(e, Since(w.store, rest.store), ids, rest.result.Ok?);
      }
    }
  }

  lemma DeletesInOrderCons(e: Event, rest: seq<Event>, ids: seq<Name>, finished: bool)
    requires ids != [] && e.call == DeleteCall(ids[0]) && e.ok
    requires DeletesInOrder(rest, ids[1..], finished)
    ensures DeletesInOrder([e] + rest, ids, finished)
  {
    var E := [e] + rest;
    assert forall j :: 1 <= j < |E| ==> E[j] == rest[j - 1] && ids[j] == ids[1..][j - 1];
  }

  /** `AirDataFrame.update` / `insert` / `upsert` / `delete`: prepare the frame, then write it
      row by row, returning one element per row. */
  function Push(svc: Service, st: Store, b: Binding, sel: Selection, mode: Mode, typecast: bool): (s: Step<seq<Option<Reply>>>)
    requires WellFormed(b.df)
    ensures st.log <= s.store.log
    ensures PrepDf(b, st, sel).Err? ==> s == Step(Err(PrepDf(b, st, sel).error), st)
    ensures s.result.Ok? ==> PrepDf(b, st, sel).Ok? && |s.result.value| == |PrepDf(b, st, sel).value.df.lines|
    ensures mode.InsertMode? ==> NoSearch(Since(st, s.store))
    ensures PrepDf(b, st, sel).Ok? && ById(PrepDf(b, st, sel).value, mode) && AllNamed(PrepDf(b, st, sel).value.df) ==>
              NoSearch(Since(st, s.store))
  {
    match PrepDf(b, st, sel)
    case Err(e) => Step(Err(e), st)
    case Ok(p) =>
      var write := RowWriter(svc, mode, typecast);
      PushNoSearch(write, st, p, mode);
      PushRows(write, st, BindRows(p, mode))
  }

  lemma PushNoSearch(write: Writer, st: Store, p: Prep, mode: Mode)
    requires Appends(write) && WellFormed(p.df) && SearchesOnlyUnset(write, mode)
    ensures mode.InsertMode? || (ById(p, mode) && AllNamed(p.df)) ==>
              NoSearch(Since(st, PushRows(write, st, BindRows(p, mode)).store))
  {
    if mode.InsertMode? || (ById(p, mode) && AllNamed(p.df)) {
      PushRowsNoSearch(write, st, BindRows(p, mode), mode);
    }
  }

  /** Deleting a frame indexed by record id deletes the rows' records one by one in frame
      order, searching for none and stopping at the first refusal. */
  lemma DeleteByRecordId(svc: Service, st: Store, b: Binding, sel: Selection, typecast: bool)
    requires WellFormed(b.df) && b.df.indexName == Some(RecordIdIndex)
    requires PrepDf(b, st, sel).Ok? && AllNamed(PrepDf(b, st, sel).value.df)
    ensures var s := Push(svc, st, b, sel, DeleteMode, typecast);
            DeletesInOrder(Since(st, s.store), Labels(PrepDf(b, st, sel).value.df), s.result.Ok?)
  {
    var p := PrepDf(b, st, sel).value;
    assert BoundWithIds(BindRows(p, DeleteMode), Labels(p.df));
    PushRowsDeletesInOrder(RowWriter(svc, DeleteMode, typecast), st, BindRows(p, DeleteMode), Labels(p.df));
  }

  /** A frame pulled from the table (`airtable_records_to_DataFrame`) is indexed by record id
      and every row has a label, whatever rows and columns are then chosen; so writing it back by
      update, upsert or delete finds every record without a search. */
  lemma PulledFrameNeedsNoSearch(svc: Service, st: Store, records: seq<Record>, table: Option<Handle>,
                                 primaryKey: Option<string>, sel: Selection, mode: Mode, typecast: bool)
    requires PrepDf(Binding(RecordsToFrame(records), table, primaryKey), st, sel).Ok?
    ensures NoSearch(Since(st, Push(svc, st, Binding(RecordsToFrame(records), table, primaryKey), sel, mode, typecast).store))
  {
    var f := RecordsToFrame(records);
    var b := Binding(f, table, primaryKey);
    var p := PrepDf(b, st, sel).value;
    forall i | 0 <= i < |p.df.lines|
      ensures p.df.lines[i].name != NoName
    {
      var x := p.df.lines[i];
      assert x in p.df.lines;
      var k :| 0 <= k < |f.lines| && Labels(f)[k] == x.name;
    }
  }
}

=== FILE: airrow.dfy ===
/** The `airtable` accessor of a pandas Series (`AirRow`): how a row finds the record it stands
    for, and how it inserts, updates, deletes and upserts that record. */
module AirRow {
  import opened Outcomes
  import opened Values
  import opened Dicts
  import opened Remote
  import opened Codec
  import opened PandasAirtable

  /** An accessor: the row, the table it is bound to, and the record id and primary key set on
      it by hand (`NoName` / `None` when unset). */
  datatype Row = Row(series: Series, table: Option<Handle>, recordId: Name, primaryKey: Option<string>)

  /** The outcome of a row operation: the value or exception, the remote table after it, and
      the accessor after it (a write records the id it learnt). */
  datatype Done<+T> = Done(result: Result<T>, store: Store, row: Row)

  /** Length of an Airtable record id. */
  const RecordIdLength := 17

  /** `_check_if_name_is_rec_id`: the row's name is a 17-character string starting "rec". A
      name without a length (an int) or None is not. */
  predicate IsRecIdShaped(name: Name) {
    name.StrName? && |name.s| == RecordIdLength && name.s[..3] == "rec"
  }

  /** `AirRow.primary_key`: the key set on the row, else the key of the bound table; reading the
      key of no table raises AttributeError. */
  function PrimaryKey(row: Row, st: Store): (r: Result<string>)
    ensures row.primaryKey.Some? ==> r == Ok(row.primaryKey.value)
    ensures row.primaryKey.None? && row.table.None? ==> r == Err(AttributeError)
    ensures row.primaryKey.None? && row.table.Some? ==> r == TablePrimaryKey(row.table.value, st)
  {
    if row.primaryKey.Some? then Ok(row.primaryKey.value)
    else if row.table.None? then Err(AttributeError)
    else TablePrimaryKey(row.table.value, st)
  }

  /** `AirRow.record_id`: the id set on the row; else the row's name when it looks like a record
      id; else a search of the bound table for the row's value under its primary key. */
  function RecordId(svc: Service, st: Store, row: Row): (s: Step<Name>)
    ensures st.log <= s.store.log
    ensures s.store.records == st.records && s.store.order == st.order
    ensures |Since(st, s.store)| <= 1
    ensures (row.recordId != NoName || IsRecIdShaped(row.series.name)) ==> s.store == st && s.result.Ok?
    ensures row.recordId != NoName ==> s.result.value == row.recordId
    ensures row.recordId == NoName && IsRecIdShaped(row.series.name) ==> s.result.value == row.series.name
    ensures Since(st, s.store) != [] ==>
              && row.recordId == NoName && !IsRecIdShaped(row.series.name) && row.table.Some?
              && PrimaryKey(row, st).Ok? && Get(row.series.data, PrimaryKey(row, st).value).Some?
              && var k := PrimaryKey(row, st).value;
                 Since(st, s.store)[0].call == SearchCall(k, Get(row.series.data, k).value)
    ensures s.result.Ok? && row.recordId == NoName && s.result.value.StrName? && !IsRecIdShaped(row.series.name) ==>
              && PrimaryKey(row, st).Ok?
              && var k := PrimaryKey(row, st).value;
                 && s.result.value.s in st.records
                 && Get(st.records[s.result.value.s], k) == Get(row.series.data, k)
    ensures row.recordId == NoName && !IsRecIdShaped(row.series.name) ==>
              && (PrimaryKey(row, st).Err? ==> s == Step(Err(PrimaryKey(row, st).error), st))
              && (PrimaryKey(row, st).Ok? && row.table.None? ==> s == Step(Err(AttributeError), st))
              && (PrimaryKey(row, st).Ok? && row.table.Some? ==>
                    var k := PrimaryKey(row, st).value;
                    if Get(row.series.data, k).None? then s == Step(Err(KeyError), st)
                    else s == GetRecordId(svc, st, k, Get(row.series.data, k).value))
  {
    if row.recordId != NoName then Step(Ok(row.recordId), st)
    else if IsRecIdShaped(row.series.name) then Step(Ok(row.series.name), st)
    else
      match PrimaryKey(row, st)
      case Err(e) => Step(Err(e), st)
      case Ok(k) =>
        if row.table.None? then Step(Err(AttributeError), st)
        else
          match Get(row.series.data, k)
          case None => Step(Err(KeyError), st)
          case Some(v) => GetRecordId(svc, st, k, v)
  }

  /** `self.fields`, restricted to `field_names` when given. */
  function Fields(row: Row, fieldNames: Option<seq<string>>): (d: Dict)
    ensures fieldNames.None? ==> d == row.series.data
    ensures fieldNames.Some? ==> forall k :: Get(d, k) == if k in fieldNames.value then Get(row.series.data, k) else None
    ensures fieldNames.Some? && (forall i :: 0 <= i < |row.series.data| ==> row.series.data[i].key in fieldNames.value) ==>
              d == row.series.data
  {
    if fieldNames.None? then row.series.data else Select(row.series.data, fieldNames.value)
  }

  /** The table a write uses: the one passed in, else the bound one. */
  function Target(row: Row, airtable: Option<Handle>): Option<Handle> {
    if airtable.Some? then airtable else row.table
  }

  /** `AirRow.insert`: always goes through `robust_insert` (both branches of the `robust` test
      call it), then records the new id on the row; a reply without an id raises KeyError. */
  function Insert(svc: Service, st: Store, row: Row, fieldNames: Option<seq<string>>,
                  airtable: Option<Handle>, robust: bool, typecast: bool): (d: Done<Reply>)
    ensures st.log <= d.store.log
    ensures Target(row, airtable).None? ==> d == Done(Err(AssertionError), st, row)
    ensures Target(row, airtable).Some? ==>
              var s := RobustInsert(svc, st, Fields(row, fieldNames), typecast);
              && d.store == s.store
              && (d.result.Ok? <==> s.result.Ok? && ReplyId(s.result.value).Some?)
              && (d.result.Ok? ==> d.result.value == s.result.value
                                   && d.row == row.(recordId := StrName(ReplyId(s.result.value).value)))
              && (d.result.Err? ==> d.row == row && d.result.error == if s.result.Err? then s.result.error else KeyError)
  {
    if Target(row, airtable).None? then Done(Err(AssertionError), st, row)
    else
      var s := RobustInsert(svc, st, Fields(row, fieldNames), typecast);
      if s.result.Err? then Done(Err(s.result.error), s.store, row)
      else
        match ReplyId(s.result.value)
        case None => Done(Err(KeyError), s.store, row)
        case Some(id) => Done(Ok(s.result.value), s.store, row.(recordId := StrName(id)))
  }

  /** After a successful row insert, the row's id names a record that is new in the table, so
      reading the row's id later makes no request and finds that record. */
  lemma InsertBindsNewRecord(svc: Service, st: Store, row: Row, fieldNames: Option<seq<string>>,
                             airtable: Option<Handle>, robust: bool, typecast: bool, svc2: Service)
    ensures var d := Insert(svc, st, row, fieldNames, airtable, robust, typecast);
            d.result.Ok? ==>
              && d.row.recordId.StrName?
              && d.row.recordId.s !in st.records && d.row.recordId.s in d.store.records
              && RecordId(svc2, d.store, d.row) == Step(Ok(d.row.recordId), d.store)
  {
    if Target(row, airtable).Some? {
      RobustInsertIdIsNew(svc, st, Fields(row, fieldNames), typecast);
    }
  }

  /** The `robust` flag of `AirRow.insert` changes nothing. */
  lemma InsertIgnoresRobust(svc: Service, st: Store, row: Row, fieldNames: Option<seq<string>>,
                            airtable: Option<Handle>, typecast: bool)
    ensures Insert(svc, st, row, fieldNames, airtable, true, typecast) == Insert(svc, st, row, fieldNames, airtable, false, typecast)
  {
  }

  /** `AirRow.update`: resolves the row's record id (its exceptions propagate), then updates,
      robustly or not. When the reply carries no id the failure is swallowed and None returned;
      otherwise the id is recorded on the row. */
  function Update(svc: Service, st: Store, row: Row, fieldNames: Option<seq<string>>,
                  airtable: Option<Handle>, robust: bool, typecast: bool): (d: Done<Option<Reply>>)
    ensures st.log <= d.store.log
    ensures Target(row, airtable).None? ==> d == Done(Err(AssertionError), st, row)
    ensures Target(row, airtable).Some? ==>
              var rid := RecordId(svc, st, row);
              && st.log <= rid.store.log <= d.store.log
              && (rid.result.Err? ==> d == Done(Err(rid.result.error), rid.store, row))
              && (rid.result.Ok? && robust ==>
                    var s := RobustUpdate(svc, rid.store, rid.result.value, Fields(row, fieldNames), typecast);
                    && d.store == s.store && d.result.Ok?
                    && (d.result.value.Some? <==> ReplyId(s.result.value).Some?)
                    && (d.result.value.Some? ==> d.result.value.value == s.result.value
                                                 && d.row == row.(recordId := StrName(ReplyId(s.result.value).value)))
                    && (d.result.value.None? ==> d.row == row))
              && (rid.result.Ok? && !robust ==>
                    var s := Remote.Update(svc, rid.store, rid.result.value, Fields(row, fieldNames), typecast);
                    && d.store == s.store
                    && (d.result.Err? <==> s.result.Err?)
                    && (d.result.Err? ==> d.result.error == Rejected && d.row == row)
                    && (d.result.Ok? ==> d.result.value == Some(RecordReply(s.result.value))
                                         && d.row == row.(recordId := StrName(s.result.value.id))))
  {
    if Target(row, airtable).None? then Done(Err(AssertionError), st, row)
    else
      var fields := Fields(row, fieldNames);
      var rid := RecordId(svc, st, row);
      if rid.result.Err? then Done(Err(rid.result.error), rid.store, row)
      else if robust then
        var s := RobustUpdate(svc, rid.store, rid.result.value, fields, typecast);
        match ReplyId(s.result.value)
        case None => Done(Ok(None), s.store, row)
        case Some(id) => Done(Ok(Some(s.result.value)), s.store, row.(recordId := StrName(id)))
      else
        var s := Remote.Update(svc, rid.store, rid.result.value, fields, typecast);
        if s.result.Err? then Done(Err(s.result.error), s.store, row)
        else Done(Ok(Some(RecordReply(s.result.value))), s.store, row.(recordId := StrName(s.result.value.id)))
  }

  /** `AirRow.delete`: resolves the row's record id, then deletes that record. */
  function Delete(svc: Service, st: Store, row: Row, airtable: Option<Handle>): (s: Step<Reply>)
    ensures st.log <= s.store.log
    ensures Target(row, airtable).None? ==> s == Step(Err(AssertionError), st)
    ensures Target(row, airtable).Some? ==>
              var rid := RecordId(svc, st, row);
              && st.log <= rid.store.log <= s.store.log
              && (rid.result.Err? ==> s == Step(Err(rid.result.error), rid.store))
              && (rid.result.Ok? ==>
                    && Since(rid.store, s.store) == [Event(DeleteCall(rid.result.value), s.result.Ok?)]
                    && (s.result.Ok? ==> && Known(st, rid.result.value)
                                         && s.result.value == DeletedReply(rid.result.value.s)
                                         && s.store.records == st.records - {rid.result.value.s})
                    && (s.result.Err? ==> s.result.error == Rejected && s.store.records == st.records))
  {
    if Target(row, airtable).None? then Step(Err(AssertionError), st)
    else
      var rid := RecordId(svc, st, row);
      if rid.result.Err? then Step(Err(rid.result.error), rid.store)
      else
        var s := Remote.Delete(svc, rid.store, rid.result.value);
        if s.result.Err? then Step(Err(s.result.error), s.store)
        else Step(Ok(DeletedReply(s.result.value)), s.store)
  }

  /** `AirRow.upsert`: resolves the record id, treating any exception from that as None, then
      upserts, robustly or not. The accessor itself is not changed. */
  function Upsert(svc: Service, st: Store, row: Row, fieldNames: Option<seq<string>>,
                  airtable: Option<Handle>, robust: bool, typecast: bool): (s: Step<Reply>)
    ensures st.log <= s.store.log
    ensures Target(row, airtable).None? ==> s == Step(Err(AssertionError), st)
    ensures Target(row, airtable).Some? ==>
              var rid := RecordId(svc, st, row);
              var id := if rid.result.Ok? then rid.result.value else NoName;
              s == if robust then RobustUpsert(svc, rid.store, id, Fields(row, fieldNames), typecast)
                   else PandasAirtable.Upsert(svc, rid.store, id, Fields(row, fieldNames), typecast)
    ensures Target(row, airtable).Some? ==>
              var rid := RecordId(svc, st, row);
              var known := rid.result.Ok? && rid.result.value != NoName;
              && rid.store.log <= s.store.log
              && var E := Since(rid.store, s.store);
                 && E != []
                 && (known ==> E[0].call.UpdateCall? && E[0].call.id == rid.result.value)
                 && (!known ==> E[0].call.InsertCall?)
                 && (known && robust ==> s.result.Ok? && NoInsert(E))
                 && (!known && !robust ==> E == [Event(InsertCall(Fields(row, fieldNames), typecast), s.result.Ok?)])
  {
    if Target(row, airtable).None? then Step(Err(AssertionError), st)
    else
      var fields := Fields(row, fieldNames);
      var rid := RecordId(svc, st, row);
      var id := if rid.result.Ok? then rid.result.value else NoName;
      if robust then RobustUpsert(svc, rid.store, id, fields, typecast)
      else PandasAirtable.Upsert(svc, rid.store, id, fields, typecast)
  }

  /** A robust row upsert of a row whose record id resolves to a record updates it and never
      creates one. */
  lemma RobustUpsertOfKnownRowCreatesNothing(svc: Service, st: Store, row: Row, fieldNames: Option<seq<string>>,
                                             airtable: Option<Handle>, typecast: bool)
    requires Target(row, airtable).Some?
    requires RecordId(svc, st, row).result.Ok? && RecordId(svc, st, row).result.value != NoName
    ensures var s := Upsert(svc, st, row, fieldNames, airtable, true, typecast);
            && s.result.Ok?
            && s.store.order == st.order
            && NoInsert(Since(st, s.store))
  {
    var rid := RecordId(svc, st, row);
    var s := Upsert(svc, st, row, fieldNames, airtable, true, typecast);
    assert s == RobustUpsert(svc, rid.store, rid.result.value, Fields(row, fieldNames), typecast);
    assert NoInsert(Since(st, rid.store));
    SinceSplit(st, rid.store, s.store);
    NoInsertJoin(Since(st, rid.store), Since(rid.store, s.store));
  }

  /** A row whose key value several records share resolves to no record, so a row upsert then
      inserts yet another record: upsert does not prevent duplicates. */
  lemma UpsertWithAmbiguousKeyInserts(svc: Service, st: Store, row: Row, fieldNames: Option<seq<string>>,
                                      airtable: Option<Handle>, typecast: bool)
    requires Valid(st)
    requires Target(row, airtable).Some? && row.table.Some?
    requires row.recordId == NoName && !IsRecIdShaped(row.series.name)
    requires PrimaryKey(row, st).Ok? && Get(row.series.data, PrimaryKey(row, st).value).Some?
    requires |MatchSet(st, PrimaryKey(row, st).value, Get(row.series.data, PrimaryKey(row, st).value).value)| >= 2
    ensures var rid := RecordId(svc, st, row);
            Upsert(svc, st, row, fieldNames, airtable, false, typecast)
              == PandasAirtable.Upsert(svc, rid.store, NoName, Fields(row, fieldNames), typecast)
    ensures var rid := RecordId(svc, st, row);
            Upsert(svc, st, row, fieldNames, airtable, true, typecast)
              == RobustInsert(svc, rid.store, Fields(row, fieldNames), typecast)
  {
    var k := PrimaryKey(row, st).value;
    GetRecordIdUnique(svc, st, k, Get(row.series.data, k).value);
  }

  /** A row found by its primary key gets an id exactly when one record of a consistent table
      holds its key value; none or several give None. */
  lemma RecordIdNeedsUniqueMatch(svc: Service, st: Store, row: Row)
    requires Valid(st)
    requires row.recordId == NoName && !IsRecIdShaped(row.series.name) && row.table.Some?
    requires PrimaryKey(row, st).Ok? && Get(row.series.data, PrimaryKey(row, st).value).Some?
    ensures var k := PrimaryKey(row, st).value;
            var s := RecordId(svc, st, row);
            s.result.Ok? ==> (s.result.value != NoName <==> |MatchSet(st, k, Get(row.series.data, k).value)| == 1)
  {
    var k := PrimaryKey(row, st).value;
    GetRecordIdUnique(svc, st, k, Get(row.series.data, k).value);
  }

  /** A row pulled from the table (a line of `airtable_records_to_DataFrame` made into a Series)
      whose record id has Airtable's shape finds its record from its name, with no request. */
  lemma PulledRowNeedsNoSearch(svc: Service, st: Store, records: seq<Record>, i: nat,
                               table: Option<Handle>, primaryKey: Option<string>)
    requires 0 <= i < |records|
    requires IsRecIdShaped(StrName(records[i].id))
    ensures var f := RecordsToFrame(records);
            RecordId(svc, st, Row(RowSeries(f, i), table, NoName, primaryKey)) == Step(Ok(StrName(records[i].id)), st)
  {
    PulledRowHoldsRecord(records, i, "");
  }

  /** A record read as a row (`airtable_record_to_Series`) gives back exactly the record's fields
      as the row's fields, which coercion leaves alone when the API accepted them; and a record
      whose id has Airtable's shape is found again from the row's name, with no request. A row's
      Series is its field dictionary itself, so the round trip is immediate here. */
  lemma RecordRoundTrip(svc: Service, st: Store, r: Record, table: Option<Handle>)
    ensures var row := Row(RecordToSeries(r), table, NoName, None);
            && Fields(row, None) == r.fields
            && (AllSendable(r.fields) ==> CoerceAll(Fields(row, None)) == r.fields)
            && (IsRecIdShaped(StrName(r.id)) ==> RecordId(svc, st, row) == Step(Ok(StrName(r.id)), st))
  {
  }

  /** Exactly the string names made of "rec" and fourteen more characters look like record ids. */
  lemma RecIdShapeExact(name: Name)
    ensures IsRecIdShaped(name) <==> name.StrName? && exists t: string :: |t| == RecordIdLength - 3 && name.s == "rec" + t
  {
    if IsRecIdShaped(name) {
      var t := name.s[3..];
      assert name.s == name.s[..3] + t;
    }
    if name.StrName? && exists t: string :: |t| == RecordIdLength - 3 && name.s == "rec" + t {
      var t: string :| |t| == RecordIdLength - 3 && name.s == "rec" + t;
      assert name.s[..3] == ("rec" + t)[..3] == "rec";
    }
  }

  /** Names that do and do not look like record ids. */
  lemma RecIdShapes()
    ensures IsRecIdShaped(StrName("rec010N7Tt4tWxXTm"))
    ensures !IsRecIdShaped(StrName("rec010N7Tt4tWxXT"))
    ensures !IsRecIdShaped(StrName("tbl010N7Tt4tWxXTm"))
    ensures !IsRecIdShaped(IntName(12345678901234567))
    ensures !IsRecIdShaped(NoName)
  {
    assert "rec010N7Tt4tWxXTm"[..3] == "rec";
    assert "tbl010N7Tt4tWxXTm"[..3] == "tbl";
  }

  /** A row insert never searches the table: it does not resolve the row's record id. */
  lemma InsertNoSearch(svc: Service, st: Store, row: Row, fieldNames: Option<seq<string>>,
                       airtable: Option<Handle>, robust: bool, typecast: bool)
    ensures NoSearch(Since(st, Insert(svc, st, row, fieldNames, airtable, robust, typecast).store))
  {
    RobustInsertNoSearch(svc, st, Fields(row, fieldNames), typecast);
  }

  /** A row whose record id was set by hand is updated, deleted or upserted without any search. */
  lemma KnownIdWritesNoSearch(svc: Service, st: Store, row: Row, fieldNames: Option<seq<string>>,
                              airtable: Option<Handle>, robust: bool, typecast: bool)
    requires row.recordId != NoName
    ensures NoSearch(Since(st, Update(svc, st, row, fieldNames, airtable, robust, typecast).store))
    ensures NoSearch(Since(st, Delete(svc, st, row, airtable).store))
    ensures NoSearch(Since(st, Upsert(svc, st, row, fieldNames, airtable, robust, typecast).store))
  {
    KnownIdUpdateNoSearch(svc, st, row, fieldNames, airtable, robust, typecast);
    KnownIdDeleteNoSearch(svc, st, row, airtable);
    KnownIdUpsertNoSearch(svc, st, row, fieldNames, airtable, robust, typecast);
  }

  lemma KnownIdUpdateNoSearch(svc: Service, st: Store, row: Row, fieldNames: Option<seq<string>>,
                              airtable: Option<Handle>, robust: bool, typecast: bool)
    requires row.recordId != NoName
    ensures NoSearch(Since(st, Update(svc, st, row, fieldNames, airtable, robust, typecast).store))
  {
    if Target(row, airtable).Some? {
      assert RecordId(svc, st, row) == Step(Ok(row.recordId), st);
      if robust {
        RobustUpdateNoSearch(svc, st, row.recordId, Fields(row, fieldNames), typecast);
      }
    }
  }

  lemma KnownIdDeleteNoSearch(svc: Service, st: Store, row: Row, airtable: Option<Handle>)
    requires row.recordId != NoName
    ensures NoSearch(Since(st, Delete(svc, st, row, airtable).store))
  {
    if Target(row, airtable).Some? {
      assert RecordId(svc, st, row) == Step(Ok(row.recordId), st);
    }
  }

  lemma KnownIdUpsertNoSearch(svc: Service, st: Store, row: Row, fieldNames: Option<seq<string>>,
                              airtable: Option<Handle>, robust: bool, typecast: bool)
    requires row.recordId != NoName
    ensures NoSearch(Since(st, Upsert(svc, st, row, fieldNames, airtable, robust, typecast).store))
  {
    if Target(row, airtable).Some? {
      assert RecordId(svc, st, row) == Step(Ok(row.recordId), st);
      UpsertsNoSearch(svc, st, row.recordId, Fields(row, fieldNames), typecast);
    }
  }

}

=== FILE: attachments.dfy ===
/** The Airtable half of `upload_attachment_to_airtable_via_s3`: appending a file's url to a
    record's attachment field. Storing the file and signing its url happen before and are given. */
module Attachments {
  import opened Outcomes
  import opened Values
  import opened Dicts
  import opened Remote

  /** The attachment list the upload writes: the field's current attachments (none when the field
      is empty or not kept) followed by `{'url': url}`. A field holding something other than a list
      has no `append`. */
  function AttachmentList(current: Option<Value>, url: string): (r: Result<Value>)
    ensures r.Ok? <==> current.None? || current.value.Null? || current.value.List?
    ensures r.Err? ==> r.error == AttributeError
    ensures r.Ok? ==> r.value.List? && |r.value.items| >= 1
                      && r.value.items[|r.value.items| - 1] == Attachment(url)
    ensures r.Ok? && current.Some? && current.value.List? ==> r.value.items == current.value.items + [Attachment(url)]
    ensures r.Ok? && !(current.Some? && current.value.List?) ==> r.value.items == [Attachment(url)]
  {
    match current
    case None => Ok(List([Attachment(url)]))
    case Some(Null) => Ok(List([Attachment(url)]))
    case Some(List(items)) => Ok(List(items + [Attachment(url)]))
    case Some(_) => Err(AttributeError)
  }

  /** Reads the field when old attachments are kept, then issues one non-typecast update that sets
      the field to the extended list. Reading a record that does not exist fails like the service. */
  function UploadAttachment(svc: Service, st: Store, recordId: Name, field: string, url: string, keep: bool): (s: Step<()>)
    ensures keep && !Known(st, recordId) ==> s == Step(Err(Rejected), st)
    ensures s.result.Ok? ==> && Known(st, recordId)
                             && s.store.order == st.order
                             && |s.store.log| == |st.log| + 1
                             && s.store.log[|st.log|].call.UpdateCall?
                             && s.store.log[|st.log|].call.id == recordId
                             && s.store.log[|st.log|].call.typecast == false
    ensures s.result.Ok? ==> Attached(st, s.store, recordId.s, field, url, keep)
    ensures s.result.Err? ==> s.result.error in {Rejected, AttributeError}
    ensures s.result.Err? ==> s.store.records == st.records
  {
    if keep && !Known(st, recordId) then Step(Err(Rejected), st)
    else
      var current := if keep then Get(st.records[recordId.s], field) else None;
      match AttachmentList(current, url)
      case Err(e) => Step(Err(e), st)
      case Ok(list) =>
        var u := Update(svc, st, recordId, [Entry(field, list)], false);
        Cons(Entry(field, list), []);
        Step(if u.result.Ok? then Ok(()) else Err(u.result.error), u.store)
  }

  /** After an upload the field ends with the new url, preceded by the kept attachments when the
      field held a list, and every other field of the record is as it was. */
  ghost predicate Attached(st: Store, after: Store, id: string, field: string, url: string, keep: bool) {
    && id in st.records && id in after.records
    && (forall k :: k != field ==> Get(after.records[id], k) == Get(st.records[id], k))
    && var before := Get(st.records[id], field);
       var now := Get(after.records[id], field);
       && now.Some? && now.value.List?
       && (if keep && before.Some? && before.value.List?
           then now.value.items == before.value.items + [Attachment(url)]
           else now.value.items == [Attachment(url)])
  }

  /** Two kept uploads to the same field leave both urls after the attachments that were there. */
  lemma TwoUploadsKeepBoth(svc: Service, st: Store, id: string, field: string, u1: string, u2: string, kept: seq<Value>)
    requires id in st.records && Get(st.records[id], field) == Some(List(kept))
    requires UploadAttachment(svc, st, StrName(id), field, u1, true).result.Ok?
    requires UploadAttachment(svc, UploadAttachment(svc, st, StrName(id), field, u1, true).store,
                              StrName(id), field, u2, true).result.Ok?
    ensures var mid := UploadAttachment(svc, st, StrName(id), field, u1, true).store;
            var last := UploadAttachment(svc, mid, StrName(id), field, u2, true).store;
            Get(last.records[id], field) == Some(List(kept + [Attachment(u1), Attachment(u2)]))
  {
    var s1 := UploadAttachment(svc, st, StrName(id), field, u1, true);
    var s2 := UploadAttachment(svc, s1.store, StrName(id), field, u2, true);
    assert Attached(st, s1.store, id, field, u1, true);
    assert Attached(s1.store, s2.store, id, field, u2, true);
    assert kept + [Attachment(u1)] + [Attachment(u2)] == kept + [Attachment(u1), Attachment(u2)];
  }
}

=== FILE: codec.dfy ===
/** Conversion between remote records and pandas rows and frames
    (`airtable_record_to_Series`, `airtable_records_to_DataFrame`, `DataFrame.iterrows`). */
module Codec {
  import opened Outcomes
  import opened Values
  import opened Dicts
  import opened Remote

  /** The index name a pulled frame carries, telling that its row labels are record ids. */
  const RecordIdIndex: string := "record_id"

  /** A pandas Series seen as a row: its name (the row label) and its data. */
  datatype Series = Series(name: Name, data: Dict)

  /** One row of a DataFrame: its label and one value per column. */
  datatype Line = Line(name: Name, values: seq<Value>)

  /** A DataFrame: the index name, the column names and the rows in order. */
  datatype Frame = Frame(indexName: Option<string>, columns: seq<string>, lines: seq<Line>)

  /** Column names are unique and every row has one value per column. */
  predicate WellFormed(f: Frame) {
    Unique(f.columns) && forall i :: 0 <= i < |f.lines| ==> |f.lines[i].values| == |f.columns|
  }

  /** The labels of the rows, in order. */
  function Labels(f: Frame): (ls: seq<Name>)
    ensures |ls| == |f.lines|
    ensures forall i :: 0 <= i < |f.lines| ==> ls[i] == f.lines[i].name
  {
    seq(|f.lines|, i requires 0 <= i < |f.lines| => f.lines[i].name)
  }

  /** The dictionary pairing each column with the row's value in it. */
  function Zip(columns: seq<string>, values: seq<Value>): (d: Dict)
    requires |columns| == |values|
    ensures Keys(d) == columns
    ensures Unique(columns) ==> Distinct(d)
  {
    if columns == [] then []
    else
      var rest := Zip(columns[1..], values[1..]);
      Cons(Entry(columns[0], values[0]), rest);
      [Entry(columns[0], values[0])] + rest
  }

  lemma {:induction false} GetZip(columns: seq<string>, values: seq<Value>, j: nat)
    requires |columns| == |values| && Unique(columns) && j < |columns|
    ensures Get(Zip(columns, values), columns[j]) == Some(values[j])
  {
    Cons(Entry(columns[0], values[0]), Zip(columns[1..], values[1..]));
    if j > 0 {
      GetZip(columns[1..], values[1..], j - 1);
      assert columns[j] in columns[1..];
    }
  }

  /** Row `i` as `df.iterrows()` yields it: a Series named by the row label. */
  function RowSeries(f: Frame, i: nat): (s: Series)
    requires WellFormed(f) && i < |f.lines|
    ensures s.name == f.lines[i].name
    ensures Keys(s.data) == f.columns && Distinct(s.data)
  {
    Series(f.lines[i].name, Zip(f.columns, f.lines[i].values))
  }

  /** `airtable_record_to_Series`: the record's fields, named by the record id. */
  function RecordToSeries(r: Record): (s: Series)
    ensures s.name.StrName? && s.name.s == r.id
    ensures forall k :: Get(s.data, k) == Get(r.fields, k)
  {
    Series(StrName(r.id), r.fields)
  }

  /** Every field name of `records`, in order, repetitions included. */
  function AllKeys(records: seq<Record>): seq<string>
  {
    if records == [] then [] else AllKeys(records[..|records| - 1]) + Keys(records[|records| - 1].fields)
  }

  /** `acc` followed by the names of `ks` not seen yet, in order of first appearance. */
  function AddNew(acc: seq<string>, ks: seq<string>): (r: seq<string>)
    ensures forall c :: c in r <==> c in acc || c in ks
    ensures Unique(acc) ==> Unique(r)
    ensures acc <= r
    ensures acc == [] && ks != [] ==> r != [] && r[0] == ks[0]
    decreases |ks|
  {
    if ks == [] then acc
    else if ks[0] in acc then
      assert ks == [ks[0]] + ks[1..];
      AddNew(acc, ks[1..])
    else
      UniqueAppend(acc, ks[0]);
      assert ks == [ks[0]] + ks[1..];
      AddNew(acc + [ks[0]], ks[1..])
  }

  /** Names that are distinct and new are appended as they come. */
  lemma {:induction false} AddNewFresh(acc: seq<string>, ks: seq<string>)
    requires Unique(ks) && forall k :: k in ks ==> k !in acc
    ensures AddNew(acc, ks) == acc + ks
    decreases |ks|
  {
    if ks != [] {
      AddNewFresh(acc + [ks[0]], ks[1..]);
      assert acc + [ks[0]] + ks[1..] == acc + ks;
    }
  }

  /** The frame's columns: the union of the records' field names, in order of first appearance. */
  function Columns(records: seq<Record>): (cs: seq<string>)
    ensures Unique(cs)
    ensures forall c :: c in cs <==> c in AllKeys(records)
    ensures AllKeys(records) == [] ==> cs == []
    ensures AllKeys(records) != [] ==> cs != [] && cs[0] == AllKeys(records)[0]
  {
    if records == [] then []
    else
      var prefix := records[..|records| - 1];
      var before := Columns(prefix);
      var ks := Keys(records[|records| - 1].fields);
      var cs := AddNew(before, ks);
      assert AllKeys(records) == AllKeys(prefix) + ks;
      assert AllKeys(records) != [] ==> cs != [] && cs[0] == AllKeys(records)[0] by {
        if AllKeys(prefix) != [] {
          assert AllKeys(records)[0] == AllKeys(prefix)[0];
          assert cs[0] == before[0];
        } else {
          assert before == [] && AllKeys(records) == ks;
        }
      }
      cs
  }

  /** The position where `x` first occurs in `ks`. */
  function FirstIndex(ks: seq<string>, x: string): (i: nat)
    requires x in ks
    ensures i < |ks| && ks[i] == x
    ensures forall m :: 0 <= m < i ==> ks[m] != x
  {
    if ks[0] == x then 0
    else
      assert ks == [ks[0]] + ks[1..];
      FirstIndex(ks[1..], x) + 1
  }

  /** The names of `cs` stand in the order in which they first occur in `ks`. */
  predicate InFirstSeenOrder(cs: seq<string>, ks: seq<string>)
    requires forall c :: c in cs ==> c in ks
  {
    forall i, j :: 0 <= i < j < |cs| ==> FirstIndex(ks, cs[i]) < FirstIndex(ks, cs[j])
  }

  /** Appending names keeps where the earlier ones first occur, and puts the others after. */
  lemma FirstIndexAppend(pre: seq<string>, ys: seq<string>, x: string)
    requires x in pre + ys
    ensures x in pre ==> FirstIndex(pre + ys, x) == FirstIndex(pre, x)
    ensures x !in pre ==> FirstIndex(pre + ys, x) >= |pre|
  {
    if x in pre {
      var i := FirstIndex(pre, x);
      assert (pre + ys)[i] == x;
      forall m | 0 <= m < i
        ensures (pre + ys)[m] != x
      {
      }
    } else {
      forall m | 0 <= m < |pre|
        ensures (pre + ys)[m] != x
      {
        assert pre[m] in pre;
      }
    }
  }

  /** Collecting the new names of `ks` after names that stand in first-seen order of `pre`
      keeps the whole list in first-seen order of `pre + ks`. */
  lemma {:induction false} AddNewInOrder(acc: seq<string>, ks: seq<string>, pre: seq<string>)
    requires forall c :: c in acc <==> c in pre
    requires InFirstSeenOrder(acc, pre + ks)
    ensures InFirstSeenOrder(AddNew(acc, ks), pre + ks)
    decreases |ks|
  {
    if ks != [] {
      var k := ks[0];
      assert pre + ks == (pre + [k]) + ks[1..];
      if k in acc {
        AddNewInOrder(acc, ks[1..], pre + [k]);
      } else {
        var acc' := acc + [k];
        assert (pre + ks)[|pre|] == k;
        FirstIndexAppend(pre, ks, k);
        assert InFirstSeenOrder(acc', pre + ks) by {
          forall i, j | 0 <= i < j < |acc'|
            ensures FirstIndex(pre + ks, acc'[i]) < FirstIndex(pre + ks, acc'[j])
          {
            if j == |acc| {
              assert acc'[i] == acc[i] && acc[i] in acc;
              FirstIndexAppend(pre, ks, acc[i]);
            }
          }
        }
        AddNewInOrder(acc', ks[1..], pre + [k]);
      }
    }
  }

  /** The frame's columns stand in the order in which the field names first occur, record by
      record and field by field. */
  lemma {:induction false} ColumnsInFirstSeenOrder(records: seq<Record>)
    ensures InFirstSeenOrder(Columns(records), AllKeys(records))
  {
    if records != [] {
      var prefix := records[..|records| - 1];
      var before := Columns(prefix);
      var ks := Keys(records[|records| - 1].fields);
      assert AllKeys(records) == AllKeys(prefix) + ks;
      ColumnsInFirstSeenOrder(prefix);
      assert InFirstSeenOrder(before, AllKeys(prefix) + ks) by {
        forall i | 0 <= i < |before|
          ensures FirstIndex(AllKeys(prefix) + ks, before[i]) == FirstIndex(AllKeys(prefix), before[i])
        {
          assert before[i] in before;
          FirstIndexAppend(AllKeys(prefix), ks, before[i]);
        }
      }
      AddNewInOrder(before, ks, AllKeys(prefix));
    }
  }

  /** A record's value in a column, NaN where the record lacks the field. */
  function CellOf(r: Record, column: string): Value {
    var v := Get(r.fields, column);
    if v.Some? then v.value else Missing
  }

  /** `airtable_records_to_DataFrame`: one row per record, labelled by its id, under the index
      name `record_id`. */
  function RecordsToFrame(records: seq<Record>): (f: Frame)
    ensures WellFormed(f)
    ensures f.indexName == Some(RecordIdIndex)
    ensures |f.lines| == |records|
    ensures forall i :: 0 <= i < |records| ==> f.lines[i].name == StrName(records[i].id)
  {
    var cs := Columns(records);
    Frame(Some(RecordIdIndex), cs,
          seq(|records|, i requires 0 <= i < |records| =>
            Line(StrName(records[i].id), seq(|cs|, j requires 0 <= j < |cs| => CellOf(records[i], cs[j])))))
  }

  lemma {:induction false} AllKeysHas(records: seq<Record>, i: nat, k: string)
    requires i < |records| && k in Keys(records[i].fields)
    ensures k in AllKeys(records)
  {
    var n := |records| - 1;
    if i < n {
      assert records[..n][i] == records[i];
      AllKeysHas(records[..n], i, k);
    }
  }

  /** Pulling a table and reading a row back gives the record's own fields, and NaN in the
      columns other records brought in. */
  lemma PulledRowHoldsRecord(records: seq<Record>, i: nat, k: string)
    requires i < |records|
    ensures var f := RecordsToFrame(records);
            var s := RowSeries(f, i);
            && s.name == StrName(records[i].id)
            && Get(s.data, k) == (if k in Keys(records[i].fields) then Get(records[i].fields, k)
                                  else if k in f.columns then Some(Missing) else None)
  {
    var f := RecordsToFrame(records);
    var line := f.lines[i];
    if k in f.columns {
      var j :| 0 <= j < |f.columns| && f.columns[j] == k;
      GetZip(f.columns, line.values, j);
    } else if k in Keys(records[i].fields) {
      AllKeysHas(records, i, k);
    }
  }
}

=== FILE: dicts.dfy ===
/** Python dictionaries of field name to value, kept in insertion order. */
module Dicts {
  import opened Outcomes
  import opened Values

  datatype Entry = Entry(key: string, val: Value)

  /** An ordered field mapping; `Distinct` holds of every dictionary Python can build. */
  type Dict = seq<Entry>

  function Keys(d: Dict): (ks: seq<string>)
    ensures |ks| == |d|
  {
    if d == [] then [] else [d[0].key] + Keys(d[1..])
  }

  /** No key occurs twice. */
  predicate Distinct(d: Dict) {
    d == [] || (d[0].key !in Keys(d[1..]) && Distinct(d[1..]))
  }

  /** `d.get(k)`: the value of the first entry with key `k`. */
  function Get(d: Dict, k: string): (r: Option<Value>)
    ensures r.None? <==> k !in Keys(d)
  {
    if d == [] then None
    else if d[0].key == k then Some(d[0].val)
    else Get(d[1..], k)
  }

  /** Unfolding the recursive definitions on a dictionary with a given first entry. */
  lemma Cons(x: Entry, rest: Dict)
    ensures ([x] + rest)[1..] == rest
    ensures Keys([x] + rest) == [x.key] + Keys(rest)
    ensures forall k :: Get([x] + rest, k) == if x.key == k then Some(x.val) else Get(rest, k)
    ensures Distinct([x] + rest) <==> x.key !in Keys(rest) && Distinct(rest)
  {
    assert ([x] + rest)[1..] == rest;
  }

  /** In a distinct dictionary, `Get` finds every entry. */
  lemma {:induction false} GetEntry(d: Dict, i: nat)
    requires Distinct(d) && i < |d|
    ensures Get(d, d[i].key) == Some(d[i].val)
  {
    if i > 0 {
      GetEntry(d[1..], i - 1);
      KeysIndex(d[1..], i - 1);
    }
  }

  lemma {:induction false} KeysIndex(d: Dict, i: nat)
    requires i < |d|
    ensures Keys(d)[i] == d[i].key
  {
    if i > 0 {
      KeysIndex(d[1..], i - 1);
    }
  }

  /** `d[k] = v`: replaces the value in place when `k` is present, appends otherwise. */
  function Put(d: Dict, k: string, v: Value): (r: Dict)
    ensures Get(r, k) == Some(v)
    ensures forall k' :: k' != k ==> Get(r, k') == Get(d, k')
    ensures k in Keys(d) ==> Keys(r) == Keys(d)
    ensures k !in Keys(d) ==> Keys(r) == Keys(d) + [k]
    ensures Distinct(d) ==> Distinct(r)
  {
    if d == [] then
      Cons(Entry(k, v), []);
      [Entry(k, v)]
    else if d[0].key == k then
      Cons(Entry(k, v), d[1..]);
      Cons(d[0], d[1..]);
      assert d == [d[0]] + d[1..];
      [Entry(k, v)] + d[1..]
    else
      var rest := Put(d[1..], k, v);
      Cons(d[0], rest);
      Cons(d[0], d[1..]);
      assert d == [d[0]] + d[1..];
      [d[0]] + rest
  }

  /** `d.update(e)`: every entry of `e`, in order, written into `d`. */
  function Merge(d: Dict, e: Dict): (r: Dict)
    ensures forall k :: k !in Keys(e) ==> Get(r, k) == Get(d, k)
    ensures Distinct(e) ==> forall k :: k in Keys(e) ==> Get(r, k) == Get(e, k)
    ensures Distinct(d) ==> Distinct(r)
    decreases |e|
  {
    if e == [] then d
    else
      Cons(e[0], e[1..]);
      assert e == [e[0]] + e[1..];
      Merge(Put(d, e[0].key, e[0].val), e[1..])
  }

  /** `{k: v for k, v in d.items() if k in names}`. */
  function Select(d: Dict, names: seq<string>): (r: Dict)
    ensures forall k :: Get(r, k) == if k in names then Get(d, k) else None
    ensures forall k :: k in Keys(r) ==> k in Keys(d)
    ensures Distinct(d) ==> Distinct(r)
    ensures (forall i :: 0 <= i < |d| ==> d[i].key in names) ==> r == d
  {
    if d == [] then []
    else
      var rest := Select(d[1..], names);
      Cons(d[0], d[1..]);
      Cons(d[0], rest);
      assert d == [d[0]] + d[1..];
      if d[0].key in names then [d[0]] + rest else rest
  }

  /** Selection looks at the first entry, then at the rest. */
  lemma SelectCons(e: Entry, rest: Dict, names: seq<string>)
    ensures Select([e] + rest, names) == (if e.key in names then [e] else []) + Select(rest, names)
  {
    assert ([e] + rest)[1..] == rest;
  }

  /** Selection keeps the dictionary's order: it distributes over concatenation. */
  lemma {:induction false} SelectAppend(a: Dict, b: Dict, names: seq<string>)
    ensures Select(a + b, names) == Select(a, names) + Select(b, names)
    decreases |a|
  {
    if a == [] {
      assert a + b == b;
    } else {
      var h := if a[0].key in names then [a[0]] else [];
      assert a + b == [a[0]] + (a[1..] + b);
      assert a == [a[0]] + a[1..];
      calc {
        Select(a + b, names);
        { SelectCons(a[0], a[1..] + b, names); }
        h + Select(a[1..] + b, names);
        { SelectAppend(a[1..], b, names); }
        h + (Select(a[1..], names) + Select(b, names));
        (h + Select(a[1..], names)) + Select(b, names);
        { SelectCons(a[0], a[1..], names); }
        Select(a, names) + Select(b, names);
      }
    }
  }

  /** Of a single entry, selection keeps exactly a listed one. */
  lemma SelectOne(e: Entry, names: seq<string>)
    ensures Select([e], names) == if e.key in names then [e] else []
  {
    SelectCons(e, [], names);
    assert [e] + [] == [e];
  }

  predicate AllSendable(d: Dict) {
    forall i :: 0 <= i < |d| ==> Sendable(d[i].val)
  }

  function CoerceOpt(v: Option<Value>): Option<Value> {
    if v.Some? then Some(Coerce(v.value)) else None
  }

  /** `{k: typecast_airtable_value(v) for k, v in d.items()}`. */
  function CoerceAll(d: Dict): (r: Dict)
    ensures Keys(r) == Keys(d)
    ensures forall k :: Get(r, k) == CoerceOpt(Get(d, k))
    ensures AllSendable(r)
    ensures AllSendable(d) ==> r == d
    ensures Distinct(d) ==> Distinct(r)
  {
    if d == [] then []
    else
      var rest := CoerceAll(d[1..]);
      var x := Entry(d[0].key, Coerce(d[0].val));
      Cons(x, rest);
      Cons(d[0], d[1..]);
      assert d == [d[0]] + d[1..];
      [x] + rest
  }

  /** Coercing a whole dictionary twice is the same as once. */
  lemma CoerceAllIdempotent(d: Dict)
    ensures CoerceAll(CoerceAll(d)) == CoerceAll(d)
  {
  }
}

=== FILE: list_fields.dfy ===
/** `unpack_list_field`: flattening the list an Airtable lookup field returns into one value. */
module ListFields {
  import opened Outcomes
  import opened Values

  /** `delimiter.join(parts)`. */
  function Join(parts: seq<string>, delimiter: string): (s: string)
    ensures |parts| == 1 ==> s == parts[0]
  {
    if parts == [] then ""
    else if |parts| == 1 then parts[0]
    else parts[0] + delimiter + Join(parts[1..], delimiter)
  }

  /** `s.split(c)` for a one-character separator. */
  function Split(s: string, c: char): (parts: seq<string>)
    ensures |parts| >= 1
    ensures c !in s ==> parts == [s]
  {
    if s == [] then [""]
    else
      var rest := Split(s[1..], c);
      if s[0] == c then [""] + rest
      else
        assert [s[0]] + s[1..] == s;
        [[s[0]] + rest[0]] + rest[1..]
  }

  /** Whether every value is a string. */
  predicate AllStrings(items: seq<Value>) {
    forall i :: 0 <= i < |items| ==> items[i].Str?
  }

  /** The strings of a list of string values. */
  function Strings(items: seq<Value>): (ss: seq<string>)
    requires AllStrings(items)
    ensures |ss| == |items| && forall i :: 0 <= i < |items| ==> ss[i] == items[i].s
  {
    seq(|items|, i requires 0 <= i < |items| => items[i].s)
  }

  /** The characters of `s`, each as a one-character string (iterating over a Python string). */
  function Chars(s: string): (cs: seq<string>)
    ensures |cs| == |s| && forall i :: 0 <= i < |s| ==> cs[i] == [s[i]]
  {
    seq(|s|, i requires 0 <= i < |s| => [s[i]])
  }

  /** `unpack_list_field(x, delimiter)`: a one-element value gives its element (a dict has no
      element 0, so it comes back whole); a longer one is joined with the delimiter when it
      holds only strings (a string is joined character by character) and comes back whole
      otherwise; a value without a length raises TypeError. */
  function UnpackListField(x: Value, delimiter: string): (r: Result<Value>)
    ensures r.Err? <==> !(x.List? || x.Str? || x.Attachment?)
    ensures r.Err? ==> r.error == TypeError
    ensures x.List? && |x.items| == 1 ==> r == Ok(x.items[0])
    ensures x.List? && |x.items| != 1 && AllStrings(x.items) ==> r == Ok(Str(Join(Strings(x.items), delimiter)))
    ensures x.List? && |x.items| != 1 && !AllStrings(x.items) ==> r == Ok(x)
    ensures x.Str? && |x.s| == 1 ==> r == Ok(x)
    ensures x.Str? && |x.s| != 1 ==> r == Ok(Str(Join(Chars(x.s), delimiter)))
    ensures x.Attachment? ==> r == Ok(x)
  {
    match x
    case List(items) =>
      if |items| == 1 then Ok(items[0])
      else if AllStrings(items) then Ok(Str(Join(Strings(items), delimiter)))
      else Ok(x)
    case Str(s) =>
      if |s| == 1 then Ok(x)
      else Ok(Str(Join(Chars(s), delimiter)))
    case Attachment(_) => Ok(x)
    case _ => Err(TypeError)
  }

  /** Splitting at a separator that `a` does not contain peels `a` off as the first part. */
  lemma {:induction false} SplitAfter(a: string, c: char, b: string)
    requires c !in a
    ensures Split(a + [c] + b, c) == [a] + Split(b, c)
  {
    if a == [] {
      assert a + [c] + b == [c] + b;
      assert ([c] + b)[1..] == b;
    } else {
      assert (a + [c] + b)[0] == a[0] != c;
      assert (a + [c] + b)[1..] == a[1..] + [c] + b;
      SplitAfter(a[1..], c, b);
      assert [a[0]] + a[1..] == a;
    }
  }

  /** Joining parts that do not contain the separator and splitting again gives the parts. */
  lemma {:induction false} SplitJoin(parts: seq<string>, c: char)
    requires |parts| >= 1
    requires forall i :: 0 <= i < |parts| ==> c !in parts[i]
    ensures Split(Join(parts, [c]), c) == parts
  {
    if |parts| > 1 {
      SplitJoin(parts[1..], c);
      SplitAfter(parts[0], c, Join(parts[1..], [c]));
    }
  }

  /** A lookup field of two or more strings, none holding the delimiter, unpacks to a string
      that splits back into those strings. */
  lemma UnpackThenSplit(items: seq<Value>, c: char)
    requires |items| >= 2 && AllStrings(items)
    requires forall i :: 0 <= i < |items| ==> c !in items[i].s
    ensures UnpackListField(List(items), [c]).Ok?
    ensures var r := UnpackListField(List(items), [c]).value;
            r.Str? && Split(r.s, c) == Strings(items)
  {
    SplitJoin(Strings(items), c);
  }

  /** Joining a string's characters with the empty delimiter gives the string back. */
  lemma {:induction false} JoinCharsEmpty(s: string)
    ensures Join(Chars(s), "") == s
  {
    if |s| > 1 {
      JoinCharsEmpty(s[1..]);
      assert Chars(s)[1..] == Chars(s[1..]);
      assert [s[0]] + s[1..] == s;
    }
  }

  /** A string of two or more characters unpacks to its characters separated by the delimiter:
      with the empty delimiter that is the string itself, and with a one-character delimiter
      the string does not contain, splitting gives the characters back. */
  lemma UnpackString(s: string, c: char)
    requires |s| >= 2
    ensures UnpackListField(Str(s), "") == Ok(Str(s))
    ensures c !in s ==> var r := UnpackListField(Str(s), [c]).value;
                        r.Str? && Split(r.s, c) == Chars(s)
  {
    JoinCharsEmpty(s);
    if c !in s {
      SplitJoin(Chars(s), c);
    }
  }
}

=== FILE: outcomes.dfy ===
/** Option and Result types, and the Python exception kinds the modelled code can raise. */
module Outcomes {

  /** Python `None` versus a present value. */
  datatype Option<+T> = None | Some(value: T)

  /** The exception classes that can leave (or be caught inside) the modelled operations. */
  datatype Error =
    | Rejected        // the remote service refused the request (an HTTP error)
    | AssertionError  // an `assert` in the source failed
    | KeyError        // a missing dictionary key or pandas label
    | TypeError       // subscripting `None`, `len` of a non-sized value, ...
    | AttributeError  // attribute access on `None`, `.append` on a non-list
    | IndexError      // `columns[0]` of a frame without columns

  /** The outcome of a Python call: a returned value or a raised exception. */
  datatype Result<+T> = Ok(value: T) | Err(error: Error)
}

=== FILE: pandas_airtable.dfy ===
/** The write protocol and lookups of the `PandasAirtable` class: plain and robust upsert, the
    robust insert and update with their per-field fallbacks, `get_record_id` and `primary_key`. */
module PandasAirtable {
  import opened Outcomes
  import opened Values
  import opened Dicts
  import opened Remote
  import Codec

  /** A `PandasAirtable` handle: the primary key given to its constructor, if any. */
  datatype Handle = Handle(primaryKey: Option<string>)

  /** What a write returns: the service's record dict; the dict a per-field fallback builds,
      `{'fails': [{'fields': {k: v}}, ...]}` updated with the last record a field update
      returned (if any did); or the service's delete acknowledgement. */
  datatype Reply =
    | RecordReply(rec: Record)
    | FieldwiseReply(fails: seq<Entry>, last: Option<Record>)
    | DeletedReply(id: string)

  /** `reply['id']`, or None where the lookup would raise KeyError. */
  function ReplyId(r: Reply): Option<string> {
    match r
    case RecordReply(rec) => Some(rec.id)
    case FieldwiseReply(_, last) => if last.Some? then Some(last.value.id) else None
    case DeletedReply(id) => Some(id)
  }

  /** The requests made between two states of the remote table. */
  function Since(before: Store, after: Store): seq<Event>
    requires before.log <= after.log
  {
    after.log[|before.log|..]
  }

  /** `events` are one single-field update of `id` per entry of `fields`, in mapping order. */
  predicate FieldUpdates(events: seq<Event>, id: Name, fields: Dict, typecast: bool) {
    |events| == |fields| &&
    forall i :: 0 <= i < |fields| ==> events[i].call == UpdateCall(id, [fields[i]], typecast)
  }

  /** The entries of `fields` whose request ended with outcome `ok`, in order. */
  function Pick(fields: Dict, events: seq<Event>, ok: bool): (r: Dict)
    requires |events| == |fields|
  {
    if fields == [] then []
    else (if events[0].ok == ok then [fields[0]] else []) + Pick(fields[1..], events[1..], ok)
  }

  /** The loop of `update_one_field_at_a_time` from a point where `fails` and the last returned
      record `last` have been collected. */
  function UpdateEach(svc: Service, st: Store, id: Name, fields: Dict, typecast: bool,
                      fails: seq<Entry>, last: Option<Record>): (s: Step<Reply>)
    ensures st.log <= s.store.log
    ensures FieldUpdates(Since(st, s.store), id, fields, typecast)
    ensures s.store.order == st.order
    decreases |fields|
  {
    if fields == [] then Step(Ok(FieldwiseReply(fails, last)), st)
    else
      var s1 := Remote.Update(svc, st, id, [fields[0]], typecast);
      var s := if s1.result.Ok? then UpdateEach(svc, s1.store, id, fields[1..], typecast, fails, Some(s1.result.value))
               else UpdateEach(svc, s1.store, id, fields[1..], typecast, fails + [fields[0]], last);
      SinceSplit(st, s1.store, s.store);
      FieldUpdatesCons(Since(st, s1.store), Since(s1.store, s.store), id, fields, typecast);
      s
  }

  /** One single-field update followed by the updates of the remaining fields. */
  lemma FieldUpdatesCons(first: seq<Event>, rest: seq<Event>, id: Name, fields: Dict, typecast: bool)
    requires fields != [] && |first| == 1 && first[0].call == UpdateCall(id, [fields[0]], typecast)
    requires FieldUpdates(rest, id, fields[1..], typecast)
    ensures FieldUpdates(first + rest, id, fields, typecast)
  {
    forall i | 0 <= i < |fields|
      ensures (first + rest)[i].call == UpdateCall(id, [fields[i]], typecast)
    {
      if i > 0 {
        assert (first + rest)[i] == rest[i - 1];
      }
    }
  }

  /** One step of the loop: the requests after the first are those of the recursive call. */
  lemma UpdateEachUnfold(svc: Service, st: Store, id: Name, fields: Dict, typecast: bool,
                         fails: seq<Entry>, last: Option<Record>)
    requires fields != []
    ensures var s1 := Remote.Update(svc, st, id, [fields[0]], typecast);
            var s := UpdateEach(svc, st, id, fields, typecast, fails, last);
            var E := Since(st, s.store);
            && s == (if s1.result.Ok? then UpdateEach(svc, s1.store, id, fields[1..], typecast, fails, Some(s1.result.value))
                     else UpdateEach(svc, s1.store, id, fields[1..], typecast, fails + [fields[0]], last))
            && E[0] == Event(UpdateCall(id, [fields[0]], typecast), s1.result.Ok?)
            && E[1..] == Since(s1.store, s.store)
  {
  }

  /** The entries picked from a non-empty field list. */
  lemma PickUnfold(fields: Dict, events: seq<Event>, ok: bool)
    requires |events| == |fields| && fields != []
    ensures Pick(fields, events, ok) == (if events[0].ok == ok then [fields[0]] else []) + Pick(fields[1..], events[1..], ok)
  {
  }

  /** Merging a non-empty list of entries writes the first, then the rest. */
  lemma MergeUnfold(d: Dict, f: Entry, rest: Dict)
    ensures Merge(d, [f] + rest) == Merge(Put(d, f.key, f.val), rest)
    ensures Merge(d, [f]) == Put(d, f.key, f.val)
  {
    assert ([f] + rest)[0] == f && ([f] + rest)[1..] == rest;
    assert [f][1..] == [];
  }

  lemma MapOverwrite<K, V>(m: map<K, V>, k: K, a: V, b: V)
    ensures m[k := a][k := b] == m[k := b]
  {
  }

  /** The loop leaves the record merged with exactly the fields whose update was accepted,
      and every other record as it was. */
  lemma {:induction false} UpdateEachStore(svc: Service, st: Store, id: Name, fields: Dict, typecast: bool,
                                           fails: seq<Entry>, last: Option<Record>)
    ensures var s := UpdateEach(svc, st, id, fields, typecast, fails, last);
            var ok := Pick(fields, Since(st, s.store), true);
            && (ok != [] ==> Known(st, id))
            && s.store.records == if Known(st, id) then st.records[id.s := Merge(st.records[id.s], ok)] else st.records
    decreases |fields|
  {
    if fields != [] {
      var f := fields[0];
      var s1 := Remote.Update(svc, st, id, [f], typecast);
      var s := UpdateEach(svc, st, id, fields, typecast, fails, last);
      UpdateEachUnfold(svc, st, id, fields, typecast, fails, last);
      var E := Since(st, s.store);
      var E1 := Since(s1.store, s.store);
      PickUnfold(fields, E, true);
      var rest := Pick(fields[1..], E1, true);
      if s1.result.Ok? {
        var next := Some(s1.result.value);
        assert s == UpdateEach(svc, s1.store, id, fields[1..], typecast, fails, next);
        UpdateEachStore(svc, s1.store, id, fields[1..], typecast, fails, next);
        var before := st.records[id.s];
        var put := Put(before, f.key, f.val);
        MergeUnfold(before, f, rest);
        assert Pick(fields, E, true) == [f] + rest;
        assert s1.store.records == st.records[id.s := put];
        assert Known(s1.store, id);
        assert s.store.records == s1.store.records[id.s := Merge(put, rest)];
        assert Merge(before, [f] + rest) == Merge(put, rest);
        MapOverwrite(st.records, id.s, put, Merge(put, rest));
      } else {
        assert s == UpdateEach(svc, s1.store, id, fields[1..], typecast, fails + [f], last);
        UpdateEachStore(svc, s1.store, id, fields[1..], typecast, fails + [f], last);
        assert Pick(fields, E, true) == rest;
        assert s1.store.records == st.records;
      }
    }
  }

  /** The loop's reply: the rejected fields appended to `fails` in order, and the record as the
      last accepted update returned it, which is the record's final state. */
  lemma UpdateEachReply(svc: Service, st: Store, id: Name, fields: Dict, typecast: bool,
                        fails: seq<Entry>, last: Option<Record>)
    requires last.Some? ==> Known(st, id) && last.value == Record(id.s, st.records[id.s])
    ensures var s := UpdateEach(svc, st, id, fields, typecast, fails, last);
            var E := Since(st, s.store);
            && s.result.Ok? && s.result.value.FieldwiseReply?
            && s.result.value.fails == fails + Pick(fields, E, false)
            && (Pick(fields, E, true) == [] ==> s.result.value.last == last)
            && (Pick(fields, E, true) != [] ==>
                  Known(s.store, id) && s.result.value.last == Some(Record(id.s, s.store.records[id.s])))
  {
    UpdateEachFails(svc, st, id, fields, typecast, fails, last);
    UpdateEachLast(svc, st, id, fields, typecast, fails, last);
  }

  /** The loop's `fails`: the rejected fields appended in order. */
  lemma {:induction false} UpdateEachFails(svc: Service, st: Store, id: Name, fields: Dict, typecast: bool,
                                           fails: seq<Entry>, last: Option<Record>)
    ensures var s := UpdateEach(svc, st, id, fields, typecast, fails, last);
            && s.result.Ok? && s.result.value.FieldwiseReply?
            && s.result.value.fails == fails + Pick(fields, Since(st, s.store), false)
    decreases |fields|
  {
    if fields != [] {
      var s := UpdateEach(svc, st, id, fields, typecast, fails, last);
      var f := fields[0];
      var s1 := Remote.Update(svc, st, id, [f], typecast);
      UpdateEachUnfold(svc, st, id, fields, typecast, fails, last);
      var E := Since(st, s.store);
      var E1 := Since(s1.store, s.store);
      PickUnfold(fields, E, false);
      if s1.result.Ok? {
        UpdateEachFails(svc, s1.store, id, fields[1..], typecast, fails, Some(s1.result.value));
        assert Pick(fields, E, false) == Pick(fields[1..], E1, false);
      } else {
        UpdateEachFails(svc, s1.store, id, fields[1..], typecast, fails + [f], last);
        assert Pick(fields, E, false) == [f] + Pick(fields[1..], E1, false);
        assert fails + [f] + Pick(fields[1..], E1, false) == fails + ([f] + Pick(fields[1..], E1, false));
      }
    }
  }

  /** The loop's `last`: unchanged when no update was accepted, otherwise the final record. */
  lemma {:induction false} UpdateEachLast(svc: Service, st: Store, id: Name, fields: Dict, typecast: bool,
                                          fails: seq<Entry>, last: Option<Record>)
    requires last.Some? ==> Known(st, id) && last.value == Record(id.s, st.records[id.s])
    ensures var s := UpdateEach(svc, st, id, fields, typecast, fails, last);
            var E := Since(st, s.store);
            s.result.Ok? && s.result.value.FieldwiseReply? ==>
              && (Pick(fields, E, true) == [] ==> s.result.value.last == last)
              && (Pick(fields, E, true) != [] ==>
                    Known(s.store, id) && s.result.value.last == Some(Record(id.s, s.store.records[id.s])))
    decreases |fields|
  {
    var s := UpdateEach(svc, st, id, fields, typecast, fails, last);
    if fields == [] {
    } else {
      var f := fields[0];
      var s1 := Remote.Update(svc, st, id, [f], typecast);
      UpdateEachUnfold(svc, st, id, fields, typecast, fails, last);
      var E := Since(st, s.store);
      var E1 := Since(s1.store, s.store);
      PickUnfold(fields, E, true);
      if s1.result.Ok? {
        var next := Some(s1.result.value);
        assert s == UpdateEach(svc, s1.store, id, fields[1..], typecast, fails, next);
        UpdateEachLast(svc, s1.store, id, fields[1..], typecast, fails, next);
        UpdateEachStore(svc, s1.store, id, fields[1..], typecast, fails, next);
        var rest := Pick(fields[1..], E1, true);
        assert Pick(fields, E, true) == [f] + rest;
        assert Known(s1.store, id);
        if rest == [] {
          assert Merge(s1.store.records[id.s], rest) == s1.store.records[id.s];
        }
      } else {
        assert s == UpdateEach(svc, s1.store, id, fields[1..], typecast, fails + [f], last);
        UpdateEachLast(svc, s1.store, id, fields[1..], typecast, fails + [f], last);
        assert Pick(fields, E, true) == Pick(fields[1..], E1, true);
        assert s1.store.records == st.records;
      }
    }
  }

  /** `update_one_field_at_a_time(record_id, fields, typecast)`: one single-field update per
      entry, in mapping order and against the same id; a refused update is recorded in `fails`
      and never raised. */
  function UpdateOneFieldAtATime(svc: Service, st: Store, id: Name, fields: Dict, typecast: bool): (s: Step<Reply>)
    ensures st.log <= s.store.log
    ensures FieldUpdates(Since(st, s.store), id, fields, typecast)
    ensures s.result.Ok? && s.result.value.FieldwiseReply?
    ensures s.result.value.fails == Pick(fields, Since(st, s.store), false)
    ensures s.result.value.last.Some? <==> Pick(fields, Since(st, s.store), true) != []
    ensures s.result.value.last.Some? ==>
              Known(s.store, id) && s.result.value.last.value == Record(id.s, s.store.records[id.s])
    ensures s.store.order == st.order
    ensures s.store.records ==
              if Known(st, id) then st.records[id.s := Merge(st.records[id.s], Pick(fields, Since(st, s.store), true))]
              else st.records
    ensures !Known(st, id) ==> s.result.value.fails == fields && s.result.value.last.None?
    ensures fields == [] ==> s.store == st && s.result.value == FieldwiseReply([], None)
  {
    UpdateEachStore(svc, st, id, fields, typecast, [], None);
    UpdateEachReply(svc, st, id, fields, typecast, [], None);
    UpdateEachUnknown(svc, st, id, fields, typecast, [], None);
    var s := UpdateEach(svc, st, id, fields, typecast, [], None);
    PickAllRejected(fields, Since(st, s.store));
    s
  }

  /** Against an id that names no record every update is refused. */
  lemma {:induction false} UpdateEachUnknown(svc: Service, st: Store, id: Name, fields: Dict, typecast: bool,
                                             fails: seq<Entry>, last: Option<Record>)
    ensures var E := Since(st, UpdateEach(svc, st, id, fields, typecast, fails, last).store);
            !Known(st, id) ==> forall i :: 0 <= i < |E| ==> !E[i].ok
    decreases |fields|
  {
    if fields != [] && !Known(st, id) {
      var s1 := Remote.Update(svc, st, id, [fields[0]], typecast);
      UpdateEachUnfold(svc, st, id, fields, typecast, fails, last);
      UpdateEachUnknown(svc, s1.store, id, fields[1..], typecast, fails + [fields[0]], last);
    }
  }

  lemma {:induction false} PickAllRejected(fields: Dict, events: seq<Event>)
    requires |events| == |fields|
    ensures (forall i :: 0 <= i < |events| ==> !events[i].ok) ==>
              Pick(fields, events, false) == fields && Pick(fields, events, true) == []
  {
    if fields != [] && forall i :: 0 <= i < |events| ==> !events[i].ok {
      assert forall i :: 0 <= i < |events| - 1 ==> events[1..][i] == events[i + 1];
      PickAllRejected(fields[1..], events[1..]);
    }
  }

  /** What the accepted and the refused fields are, position by position. */
  lemma {:induction false} PickPositions(fields: Dict, events: seq<Event>, i: nat)
    requires |events| == |fields| && Distinct(fields) && i < |fields|
    ensures Distinct(Pick(fields, events, true))
    ensures events[i].ok ==> Get(Pick(fields, events, true), fields[i].key) == Some(fields[i].val)
    ensures !events[i].ok ==> fields[i].key !in Keys(Pick(fields, events, true))
  {
    var f := fields[0];
    var rest := Pick(fields[1..], events[1..], true);
    PickUnfold(fields, events, true);
    PickKeys(fields[1..], events[1..]);
    Cons(f, fields[1..]);
    Cons(f, rest);
    assert fields == [f] + fields[1..];
    assert f.key !in Keys(rest);
    if i == 0 {
      if fields[1..] != [] {
        PickPositions(fields[1..], events[1..], 0);
      }
      if events[0].ok {
        assert Pick(fields, events, true) == [f] + rest;
      } else {
        assert Pick(fields, events, true) == rest;
      }
    } else {
      PickPositions(fields[1..], events[1..], i - 1);
      assert fields[i] == fields[1..][i - 1];
      KeysIndex(fields[1..], i - 1);
      assert fields[i].key in Keys(fields[1..]);
      assert fields[i].key != f.key;
      if events[0].ok {
        assert Pick(fields, events, true) == [f] + rest;
      } else {
        assert Pick(fields, events, true) == rest;
      }
    }
  }

  lemma {:induction false} PickKeys(fields: Dict, events: seq<Event>)
    requires |events| == |fields|
    ensures forall k :: k in Keys(Pick(fields, events, true)) ==> k in Keys(fields)
  {
    if fields != [] {
      var rest := Pick(fields[1..], events[1..], true);
      PickKeys(fields[1..], events[1..]);
      PickUnfold(fields, events, true);
      Cons(fields[0], fields[1..]);
      Cons(fields[0], rest);
      assert fields == [fields[0]] + fields[1..];
      if events[0].ok {
        assert Pick(fields, events, true) == [fields[0]] + rest;
      } else {
        assert Pick(fields, events, true) == rest;
      }
    }
  }

  /** After the per-field fallback on an existing record, each field holds its new value when
      its update was accepted and its old value when it was refused. */
  lemma PerFieldOutcome(svc: Service, st: Store, id: Name, fields: Dict, typecast: bool, i: nat)
    requires Known(st, id) && Distinct(fields) && i < |fields|
    ensures var s := UpdateOneFieldAtATime(svc, st, id, fields, typecast);
            var E := Since(st, s.store);
            var k := fields[i].key;
            && (E[i].ok ==> Get(s.store.records[id.s], k) == Some(fields[i].val))
            && (!E[i].ok ==> Get(s.store.records[id.s], k) == Get(st.records[id.s], k)
                             && fields[i] in s.result.value.fails)
  {
    var s := UpdateOneFieldAtATime(svc, st, id, fields, typecast);
    var E := Since(st, s.store);
    PickPositions(fields, E, i);
    if !E[i].ok {
      PickHas(fields, E, i);
    }
  }

  lemma {:induction false} PickHas(fields: Dict, events: seq<Event>, i: nat)
    requires |events| == |fields| && i < |fields| && !events[i].ok
    ensures fields[i] in Pick(fields, events, false)
  {
    if i > 0 {
      PickHas(fields[1..], events[1..], i - 1);
    }
  }

  /** The loop of `insert_one_field_at_a_time`: single-field inserts in mapping order, stopping
      at the first the service accepts; TypeError stands for the `None` record left when none is. */
  function InsertFirst(svc: Service, st: Store, fields: Dict, typecast: bool): (s: Step<Record>)
    ensures st.log <= s.store.log
    decreases |fields|
  {
    if fields == [] then Step(Err(TypeError), st)
    else
      var s1 := Remote.Insert(svc, st, [fields[0]], typecast);
      if s1.result.Ok? then s1 else InsertFirst(svc, s1.store, fields[1..], typecast)
  }

  /** The single-field inserts are tried in order; when none is accepted every field was tried
      and the table is as it was; otherwise all but the last were refused and the last created
      one record holding that field alone. */
  lemma InsertFirstSpec(svc: Service, st: Store, fields: Dict, typecast: bool)
    ensures var s := InsertFirst(svc, st, fields, typecast);
            && (s.result.Err? ==> s.result.error == TypeError && AllInsertsRefused(st, s.store, fields, typecast))
            && (s.result.Ok? ==> && InsertsUntilAccepted(Since(st, s.store), fields, typecast)
                                 && CreatedBy(st, s, [fields[|Since(st, s.store)| - 1]]))
  {
    InsertFirstRefused(svc, st, fields, typecast);
    InsertFirstCreated(svc, st, fields, typecast);
  }

  lemma {:induction false} InsertFirstRefused(svc: Service, st: Store, fields: Dict, typecast: bool)
    ensures var s := InsertFirst(svc, st, fields, typecast);
            s.result.Err? ==> s.result.error == TypeError && AllInsertsRefused(st, s.store, fields, typecast)
    decreases |fields|
  {
    if fields != [] {
      var s1 := Remote.Insert(svc, st, [fields[0]], typecast);
      if s1.result.Err? {
        var s := InsertFirst(svc, s1.store, fields[1..], typecast);
        assert s == InsertFirst(svc, st, fields, typecast);
        InsertFirstRefused(svc, s1.store, fields[1..], typecast);
        if s.result.Err? {
          SinceSplit(st, s1.store, s.store);
          InsertsRefusedCons(Since(st, s1.store), Since(s1.store, s.store), fields, typecast);
        }
      }
    }
  }

  lemma {:induction false} InsertFirstCreated(svc: Service, st: Store, fields: Dict, typecast: bool)
    ensures var s := InsertFirst(svc, st, fields, typecast);
            s.result.Ok? ==> && InsertsUntilAccepted(Since(st, s.store), fields, typecast)
                             && CreatedBy(st, s, [fields[|Since(st, s.store)| - 1]])
    decreases |fields|
  {
    if fields != [] {
      var s1 := Remote.Insert(svc, st, [fields[0]], typecast);
      if s1.result.Err? {
        var s := InsertFirst(svc, s1.store, fields[1..], typecast);
        assert s == InsertFirst(svc, st, fields, typecast);
        InsertFirstCreated(svc, s1.store, fields[1..], typecast);
        if s.result.Ok? {
          SinceSplit(st, s1.store, s.store);
          InsertsUntilAcceptedCons(Since(st, s1.store), Since(s1.store, s.store), fields, typecast);
          assert fields[|Since(st, s.store)| - 1] == fields[1..][|Since(s1.store, s.store)| - 1];
        }
      } else {
        assert Since(st, s1.store) == [Event(InsertCall([fields[0]], typecast), true)];
      }
    }
  }

  /** Record `s.result.value` is new to `st` and is the one record the step added, holding `created`. */
  predicate CreatedBy(st: Store, s: Step<Record>, created: Dict) {
    && s.result.Ok?
    && s.result.value.fields == created
    && s.result.value.id !in st.records
    && s.store.records == st.records[s.result.value.id := created]
    && s.store.order == st.order + [s.result.value.id]
  }

  lemma InsertsUntilAcceptedCons(first: seq<Event>, rest: seq<Event>, fields: Dict, typecast: bool)
    requires fields != [] && first == [Event(InsertCall([fields[0]], typecast), false)]
    requires InsertsUntilAccepted(rest, fields[1..], typecast)
    ensures InsertsUntilAccepted(first + rest, fields, typecast)
  {
    var E := first + rest;
    forall i | 0 < i < |E|
      ensures E[i] == rest[i - 1] && fields[i] == fields[1..][i - 1]
    {
    }
  }

  lemma InsertsRefusedCons(first: seq<Event>, rest: seq<Event>, fields: Dict, typecast: bool)
    requires fields != [] && first == [Event(InsertCall([fields[0]], typecast), false)]
    requires |rest| == |fields| - 1
    requires forall i :: 0 <= i < |rest| ==> rest[i] == Event(InsertCall([fields[1..][i]], typecast), false)
    ensures forall i :: 0 <= i < |first + rest| ==> (first + rest)[i] == Event(InsertCall([fields[i]], typecast), false)
  {
    var E := first + rest;
    forall i | 0 < i < |E|
      ensures E[i] == rest[i - 1] && fields[i] == fields[1..][i - 1]
    {
    }
  }

  /** Every field was tried alone as an insert, in order, and each was refused. */
  predicate AllInsertsRefused(st: Store, after: Store, fields: Dict, typecast: bool)
    requires st.log <= after.log
  {
    var E := Since(st, after);
    && |E| == |fields|
    && (forall i :: 0 <= i < |E| ==> E[i] == Event(InsertCall([fields[i]], typecast), false))
    && after.records == st.records && after.order == st.order
  }

  /** The requests of a successful per-field insert: single-field inserts in order until the
      first accepted one (field `n - 1`) created record `id`, then one update of `id` per field,
      every field included; the new record holds the creating field merged with the accepted
      updates. */
  predicate CreatedThenReapplied(st: Store, s: Step<Reply>, fields: Dict, typecast: bool)
    requires st.log <= s.store.log
  {
    var E := Since(st, s.store);
    var n := |E| - |fields|;
    && 0 < n <= |fields|
    && InsertsUntilAccepted(E[..n], fields, typecast)
    && |s.store.order| == |st.order| + 1
    && Reapplied(st.records, s, s.store.order[|st.order|], fields, typecast, [fields[n - 1]], E[n..])
  }

  /** `events` are single-field inserts of the first entries of `fields`, in order, all refused
      but the last, which was accepted. */
  predicate InsertsUntilAccepted(events: seq<Event>, fields: Dict, typecast: bool) {
    && 0 < |events| <= |fields|
    && (forall i :: 0 <= i < |events| ==> events[i].call == InsertCall([fields[i]], typecast))
    && (forall i :: 0 <= i < |events| - 1 ==> !events[i].ok)
    && events[|events| - 1].ok
  }

  /** Record `id`, new to `before` and created holding `created`, then had every field of
      `fields` re-applied by the single-field updates `updates`; the reply is the per-field one. */
  predicate Reapplied(before: map<string, Dict>, s: Step<Reply>, id: string, fields: Dict, typecast: bool,
                      created: Dict, updates: seq<Event>)
  {
    && id !in before
    && FieldUpdates(updates, StrName(id), fields, typecast)
    && s.store.records == before[id := Merge(created, Pick(fields, updates, true))]
    && s.result.Ok? && s.result.value.FieldwiseReply?
    && s.result.value.fails == Pick(fields, updates, false)
    && (s.result.value.last.Some? <==> Pick(fields, updates, true) != [])
    && (s.result.value.last.Some? ==> s.result.value.last.value == Record(id, s.store.records[id]))
  }

  /** `insert_one_field_at_a_time(fields, typecast)`: creates the record from the first field
      the service accepts alone, then re-applies every field, that one included, with the
      per-field update; when no field can create a record, `record['id']` on None raises. */
  function InsertOneFieldAtATime(svc: Service, st: Store, fields: Dict, typecast: bool): (s: Step<Reply>)
    ensures st.log <= s.store.log
    ensures s.result.Err? ==> s.result.error == TypeError && AllInsertsRefused(st, s.store, fields, typecast)
    ensures s.result.Ok? ==> CreatedThenReapplied(st, s, fields, typecast)
  {
    var c := InsertFirst(svc, st, fields, typecast);
    if c.result.Err? then
      InsertFirstSpec(svc, st, fields, typecast);
      Step(Err(TypeError), c.store)
    else
      var s := UpdateOneFieldAtATime(svc, c.store, StrName(c.result.value.id), fields, typecast);
      InsertFirstCreated(svc, st, fields, typecast);
      ReapplyAfterCreate(svc, st, fields, typecast, c, s);
      s
  }

  /** The whole request sequence of a successful per-field insert: the creating inserts followed
      by the per-field updates of the new record. */
  lemma ReapplyAfterCreate(svc: Service, st: Store, fields: Dict, typecast: bool, c: Step<Record>, s: Step<Reply>)
    requires st.log <= c.store.log && InsertsUntilAccepted(Since(st, c.store), fields, typecast)
    requires CreatedBy(st, c, [fields[|Since(st, c.store)| - 1]])
    requires s == UpdateOneFieldAtATime(svc, c.store, StrName(c.result.value.id), fields, typecast)
    ensures st.log <= s.store.log
    ensures CreatedThenReapplied(st, s, fields, typecast)
  {
    var n := |Since(st, c.store)|;
    ReappliedAfterCreate(svc, st, c, s, fields, typecast, n);
    CreatedThenReappliedIntro(st, c, s, fields, typecast);
  }

  /** The requests between three states of the table are those of the first leg, then those
      of the second. */
  lemma SinceSplit(a: Store, b: Store, c: Store)
    requires a.log <= b.log <= c.log
    ensures Since(a, c) == Since(a, b) + Since(b, c)
    ensures Since(a, c)[..|Since(a, b)|] == Since(a, b) && Since(a, c)[|Since(a, b)|..] == Since(b, c)
  {
  }

  lemma CreatedThenReappliedIntro(st: Store, c: Step<Record>, s: Step<Reply>, fields: Dict, typecast: bool)
    requires c.result.Ok? && st.log <= c.store.log <= s.store.log
    requires InsertsUntilAccepted(Since(st, c.store), fields, typecast)
    requires s.store.order == st.order + [c.result.value.id]
    requires Reapplied(st.records, s, c.result.value.id, fields, typecast,
                       [fields[|Since(st, c.store)| - 1]], Since(c.store, s.store))
    ensures CreatedThenReapplied(st, s, fields, typecast)
  {
    SinceSplit(st, c.store, s.store);
    assert |Since(st, s.store)| - |fields| == |Since(st, c.store)|;
    assert (st.order + [c.result.value.id])[|st.order|] == c.result.value.id;
  }

  /** After a per-field insert that created a record, no request was a search, and the reply's
      id, if any, names the new record. */
  lemma CreatedThenReappliedFacts(st: Store, s: Step<Reply>, fields: Dict, typecast: bool)
    requires st.log <= s.store.log && CreatedThenReapplied(st, s, fields, typecast)
    ensures NoSearch(Since(st, s.store))
    ensures ReplyId(s.result.value).Some? ==>
              ReplyId(s.result.value).value !in st.records && ReplyId(s.result.value).value in s.store.records
  {
    var E := Since(st, s.store);
    var n := |E| - |fields|;
    var id := s.store.order[|st.order|];
    ReappliedFacts(st.records, s, id, fields, typecast, [fields[n - 1]], E[n..]);
    InsertsThenUpdatesNoSearch(E, n, fields, typecast, StrName(id));
  }

  lemma ReappliedFacts(before: map<string, Dict>, s: Step<Reply>, id: string, fields: Dict, typecast: bool,
                       created: Dict, updates: seq<Event>)
    requires Reapplied(before, s, id, fields, typecast, created, updates)
    ensures FieldUpdates(updates, StrName(id), fields, typecast)
    ensures ReplyId(s.result.value).Some? ==> ReplyId(s.result.value) == Some(id)
    ensures id !in before && id in s.store.records
  {
  }

  lemma InsertsThenUpdatesNoSearch(E: seq<Event>, n: nat, fields: Dict, typecast: bool, id: Name)
    requires n <= |E| && InsertsUntilAccepted(E[..n], fields, typecast) && FieldUpdates(E[n..], id, fields, typecast)
    ensures NoSearch(E)
  {
    FieldUpdatesNoSearch(E[n..], id, fields, typecast);
    forall j | 0 <= j < |E|
      ensures !E[j].call.SearchCall?
    {
      if j >= n {
        assert E[j] == E[n..][j - n];
      } else {
        assert E[j] == E[..n][j];
      }
    }
  }

  lemma ReappliedAfterCreate(svc: Service, st: Store, c: Step<Record>, s: Step<Reply>,
                             fields: Dict, typecast: bool, n: nat)
    requires 0 < n <= |fields| && CreatedBy(st, c, [fields[n - 1]])
    requires s == UpdateOneFieldAtATime(svc, c.store, StrName(c.result.value.id), fields, typecast)
    ensures c.store.log <= s.store.log
    ensures s.store.order == st.order + [c.result.value.id]
    ensures Reapplied(st.records, s, c.result.value.id, fields, typecast, [fields[n - 1]], Since(c.store, s.store))
  {
    var id := c.result.value.id;
    assert Known(c.store, StrName(id));
    MapOverwrite(st.records, id, [fields[n - 1]], Merge([fields[n - 1]], Pick(fields, Since(c.store, s.store), true)));
  }

  /** A request that carries only values the remote API accepts as they are. */
  predicate CallSendable(c: Call) {
    match c
    case InsertCall(fields, _) => AllSendable(fields)
    case UpdateCall(_, fields, _) => AllSendable(fields)
    case _ => true
  }

  predicate AllCallsSendable(events: seq<Event>) {
    forall i :: 0 <= i < |events| ==> CallSendable(events[i].call)
  }

  lemma FieldUpdatesSendable(events: seq<Event>, id: Name, fields: Dict, typecast: bool)
    requires FieldUpdates(events, id, fields, typecast) && AllSendable(fields)
    ensures AllCallsSendable(events)
  {
    forall i | 0 <= i < |events|
      ensures CallSendable(events[i].call)
    {
      assert AllSendable([fields[i]]);
    }
  }

  /** `robust_update(record_id, fields, typecast)`: coerces every value, tries one bulk update
      (always with typecast on), and on refusal falls back to the per-field update with the
      caller's typecast. */
  function RobustUpdate(svc: Service, st: Store, id: Name, fields: Dict, typecast: bool): (s: Step<Reply>)
    ensures st.log <= s.store.log
    ensures RobustUpdated(st, s, id, CoerceAll(fields), typecast)
  {
    var cf := CoerceAll(fields);
    var u := Remote.Update(svc, st, id, cf, true);
    if u.result.Ok? then Step(Ok(RecordReply(u.result.value)), u.store)
    else
      var s := UpdateOneFieldAtATime(svc, u.store, id, cf, typecast);
      SinceSplit(st, u.store, s.store);
      FieldUpdatesSendable(Since(u.store, s.store), id, cf, typecast);
      s
  }

  /** The requests and outcome of `robust_update` with the coerced fields `cf`: never an
      exception; a bulk update with typecast on first; then, only if it was refused, one
      single-field update per field; the record ends merged with what was accepted. */
  predicate RobustUpdated(st: Store, s: Step<Reply>, id: Name, cf: Dict, typecast: bool)
    requires st.log <= s.store.log
  {
    var E := Since(st, s.store);
    && s.result.Ok?
    && E != [] && E[0].call == UpdateCall(id, cf, true)
    && AllCallsSendable(E)
    && s.store.order == st.order
    && (E[0].ok ==> && |E| == 1 && Known(st, id)
                    && s.store.records == st.records[id.s := Merge(st.records[id.s], cf)]
                    && s.result.value == RecordReply(Record(id.s, s.store.records[id.s])))
    && (!E[0].ok ==> && FieldUpdates(E[1..], id, cf, typecast)
                     && s.result.value.FieldwiseReply?
                     && s.result.value.fails == Pick(cf, E[1..], false)
                     && s.store.records == if Known(st, id) then st.records[id.s := Merge(st.records[id.s], Pick(cf, E[1..], true))]
                                           else st.records)
  }

  /** `robust_insert(fields, typecast)`: coerces every value, tries one bulk insert, and on
      refusal falls back to the per-field insert of the coerced fields. */
  function RobustInsert(svc: Service, st: Store, fields: Dict, typecast: bool): (s: Step<Reply>)
    ensures st.log <= s.store.log
    ensures RobustInserted(st, s, CoerceAll(fields), typecast)
  {
    var cf := CoerceAll(fields);
    var i := Remote.Insert(svc, st, cf, typecast);
    if i.result.Ok? then Step(Ok(RecordReply(i.result.value)), i.store)
    else
      var s := InsertOneFieldAtATime(svc, i.store, cf, typecast);
      RobustInsertFallback(st, i.store, s, cf, typecast);
      s
  }

  /** A refused bulk insert followed by the per-field insert is the refused branch of `RobustInserted`. */
  lemma RobustInsertFallback(st: Store, mid: Store, s: Step<Reply>, cf: Dict, typecast: bool)
    requires mid == st.(log := st.log + [Event(InsertCall(cf, typecast), false)]) && mid.log <= s.store.log
    requires s.result.Err? ==> s.result.error == TypeError && AllInsertsRefused(mid, s.store, cf, typecast)
    requires s.result.Ok? ==> CreatedThenReapplied(mid, s, cf, typecast)
    ensures st.log <= s.store.log && RobustInserted(st, s, cf, typecast)
  {
    var ev := Event(InsertCall(cf, typecast), false);
    assert s.store.log[..|mid.log|] == mid.log == st.log + [ev];
    assert s.store.log[|st.log|] == ev;
    assert Since(st, s.store)[0] == ev;
    assert st.(log := st.log + [ev]) == mid;
  }

  /** Whatever path `robust_insert` took, an id in its reply names a record that did not exist
      before the call and exists after it. */
  lemma RobustInsertIdIsNew(svc: Service, st: Store, fields: Dict, typecast: bool)
    ensures var s := RobustInsert(svc, st, fields, typecast);
            s.result.Ok? && ReplyId(s.result.value).Some? ==>
              ReplyId(s.result.value).value !in st.records && ReplyId(s.result.value).value in s.store.records
  {
    var s := RobustInsert(svc, st, fields, typecast);
    var E := Since(st, s.store);
    if s.result.Ok? && !E[0].ok {
      var st1 := st.(log := st.log + [E[0]]);
      assert CreatedThenReapplied(st1, s, CoerceAll(fields), typecast);
      CreatedThenReappliedFacts(st1, s, CoerceAll(fields), typecast);
    }
  }

  /** The requests and outcome of `robust_insert` with the coerced fields `cf`: a bulk insert
      first; if it was accepted, its record is the reply; otherwise the rest is exactly the
      per-field insert, which raises only when no single field could create a record. */
  predicate RobustInserted(st: Store, s: Step<Reply>, cf: Dict, typecast: bool)
    requires st.log <= s.store.log
  {
    var E := Since(st, s.store);
    && E != [] && E[0].call == InsertCall(cf, typecast)
    && (E[0].ok ==> && |E| == 1 && s.result.Ok? && s.result.value.RecordReply?
                    && var id := s.result.value.rec.id;
                       && id !in st.records && s.result.value.rec.fields == cf
                       && s.store.records == st.records[id := cf] && s.store.order == st.order + [id])
    && (!E[0].ok ==> var st1 := st.(log := st.log + [E[0]]);
                     && (s.result.Err? ==> s.result.error == TypeError && AllInsertsRefused(st1, s.store, cf, typecast))
                     && (s.result.Ok? ==> CreatedThenReapplied(st1, s, cf, typecast)))
  }

  /** Converts the record a service call returned into a reply. */
  function AsReply(s: Step<Record>): (r: Step<Reply>)
    ensures r.store == s.store
    ensures r.result.Ok? <==> s.result.Ok?
    ensures r.result.Ok? ==> r.result.value == RecordReply(s.result.value)
    ensures r.result.Err? ==> r.result.error == s.result.error
  {
    if s.result.Ok? then Step(Ok(RecordReply(s.result.value)), s.store) else Step(Err(s.result.error), s.store)
  }

  /** `upsert(record_id, fields, typecast)`: with an id, a plain update; if that raises, or when
      the id is None, a plain insert, whose failure propagates. */
  function Upsert(svc: Service, st: Store, id: Name, fields: Dict, typecast: bool): (s: Step<Reply>)
    ensures st.log <= s.store.log
    ensures var E := Since(st, s.store);
            && (id == NoName ==> E == [Event(InsertCall(fields, typecast), s.result.Ok?)])
            && (id != NoName ==> && E != [] && E[0].call == UpdateCall(id, fields, typecast)
                                 && (E[0].ok ==> |E| == 1 && s.result.Ok?)
                                 && (!E[0].ok ==> E[1..] == [Event(InsertCall(fields, typecast), s.result.Ok?)]))
            && (s.result.Err? ==> s.result.error == Rejected && s.store.records == st.records)
            && (s.result.Ok? ==> s.result.value.RecordReply?
                                 && var rec := s.result.value.rec; s.store.records == st.records[rec.id := rec.fields])
  {
    if id == NoName then AsReply(Remote.Insert(svc, st, fields, typecast))
    else
      var u := Remote.Update(svc, st, id, fields, typecast);
      if u.result.Ok? then Step(Ok(RecordReply(u.result.value)), u.store)
      else
        var s := AsReply(Remote.Insert(svc, u.store, fields, typecast));
        assert Since(st, s.store) == [Since(st, s.store)[0]] + Since(u.store, s.store);
        s
  }

  /** `robust_upsert(record_id, fields, typecast)`: with an id, `robust_update`, whose fallback
      swallows every refusal, so the insert branch is never reached; with None, `robust_insert`. */
  function RobustUpsert(svc: Service, st: Store, id: Name, fields: Dict, typecast: bool): (s: Step<Reply>)
    ensures st.log <= s.store.log
    ensures id == NoName ==> s == RobustInsert(svc, st, fields, typecast)
    ensures id != NoName ==> && s == RobustUpdate(svc, st, id, fields, typecast)
                             && s.result.Ok? && s.store.order == st.order
                             && NoInsert(Since(st, s.store))
  {
    if id == NoName then RobustInsert(svc, st, fields, typecast)
    else
      var u := RobustUpdate(svc, st, id, fields, typecast);
      RobustUpdateNoInsert(svc, st, id, fields, typecast);
      if u.result.Ok? then u else RobustInsert(svc, u.store, fields, typecast)
  }

  /** `get_record_id(field_name, field_value)`: searches the table and returns the id only when
      exactly one record matches; zero or several matches give None. */
  function GetRecordId(svc: Service, st: Store, field: string, value: Value): (s: Step<Name>)
    ensures s.store == st.(log := st.log + [Event(SearchCall(field, value), s.result.Ok?)])
    ensures s.result.Err? ==> s.result.error == Rejected
    ensures s.result.Ok? && s.result.value.StrName? ==>
              s.result.value.s in st.records && Get(st.records[s.result.value.s], field) == Some(value)
    ensures s.result.Ok? ==> (s.result.value.StrName? <==> |Matching(st, st.order, field, value)| == 1)
    ensures s.result.Ok? ==> s.result.value.StrName? || s.result.value.NoName?
  {
    var found := Search(svc, st, field, value);
    if found.result.Err? then Step(Err(found.result.error), found.store)
    else
      var ids := found.result.value;
      Step(Ok(if |ids| == 1 then StrName(ids[0]) else NoName), found.store)
  }

  /** On a consistent table, an id comes back exactly when one record holds the value. */
  lemma GetRecordIdUnique(svc: Service, st: Store, field: string, value: Value)
    requires Valid(st)
    ensures var s := GetRecordId(svc, st, field, value);
            s.result.Ok? ==> (s.result.value.StrName? <==> |MatchSet(st, field, value)| == 1)
  {
    SearchCountsRecords(st, field, value);
  }

  /** `PandasAirtable.primary_key`: the key given to the constructor, else the first column of
      the pulled table, which raises IndexError when no record has a field. */
  function TablePrimaryKey(h: Handle, st: Store): (r: Result<string>)
    ensures h.primaryKey.Some? ==> r == Ok(h.primaryKey.value)
    ensures h.primaryKey.None? ==> (r.Ok? <==> Codec.AllKeys(GetAll(st)) != [])
    ensures h.primaryKey.None? && r.Ok? ==> r.value == Codec.AllKeys(GetAll(st))[0]
    ensures r.Err? ==> r.error == IndexError
  {
    if h.primaryKey.Some? then Ok(h.primaryKey.value)
    else
      var columns := Codec.Columns(GetAll(st));
      assert columns != [] ==> columns[0] in Codec.AllKeys(GetAll(st));
      if columns == [] then Err(IndexError) else Ok(columns[0])
  }

  /** Single-field updates are no inserts. */
  lemma FieldUpdatesNoInsert(events: seq<Event>, id: Name, fields: Dict, typecast: bool)
    requires FieldUpdates(events, id, fields, typecast)
    ensures NoInsert(events)
  {
    forall i | 0 <= i < |events|
      ensures !events[i].call.InsertCall?
    {
      assert events[i].call == UpdateCall(id, [fields[i]], typecast);
    }
  }

  lemma FieldUpdatesNoSearch(events: seq<Event>, id: Name, fields: Dict, typecast: bool)
    requires FieldUpdates(events, id, fields, typecast)
    ensures NoSearch(events)
  {
    forall i | 0 <= i < |events|
      ensures !events[i].call.SearchCall?
    {
      assert events[i].call == UpdateCall(id, [fields[i]], typecast);
    }
  }

  /** The per-field insert only inserts and updates. */
  lemma InsertOneFieldAtATimeNoSearch(svc: Service, st: Store, fields: Dict, typecast: bool)
    ensures NoSearch(Since(st, InsertOneFieldAtATime(svc, st, fields, typecast).store))
  {
    var s := InsertOneFieldAtATime(svc, st, fields, typecast);
    if s.result.Ok? {
      CreatedThenReappliedFacts(st, s, fields, typecast);
    }
  }

  /** `robust_insert` only inserts and updates: it never searches the table. */
  lemma RobustInsertNoSearch(svc: Service, st: Store, fields: Dict, typecast: bool)
    ensures NoSearch(Since(st, RobustInsert(svc, st, fields, typecast).store))
  {
    RobustInsertedNoSearch(st, RobustInsert(svc, st, fields, typecast), CoerceAll(fields), typecast);
  }

  lemma RobustInsertedNoSearch(st: Store, s: Step<Reply>, cf: Dict, typecast: bool)
    requires st.log <= s.store.log && RobustInserted(st, s, cf, typecast)
    ensures NoSearch(Since(st, s.store))
  {
    var E := Since(st, s.store);
    if !E[0].ok {
      var st1 := st.(log := st.log + [E[0]]);
      assert st1.log <= s.store.log;
      if s.result.Ok? {
        CreatedThenReappliedFacts(st1, s, cf, typecast);
      } else {
        assert AllInsertsRefused(st1, s.store, cf, typecast);
      }
      assert E == [E[0]] + Since(st1, s.store);
      NoSearchJoin([E[0]], Since(st1, s.store));
    }
  }

  /** `robust_update` only updates: it never searches the table. */
  lemma RobustUpdateNoSearch(svc: Service, st: Store, id: Name, fields: Dict, typecast: bool)
    ensures var s := RobustUpdate(svc, st, id, fields, typecast);
            NoSearch(Since(st, s.store))
  {
    RobustUpdatedCalls(st, RobustUpdate(svc, st, id, fields, typecast), id, CoerceAll(fields), typecast);
  }

  /** After `robust_update` every request was an update. */
  lemma RobustUpdatedCalls(st: Store, s: Step<Reply>, id: Name, cf: Dict, typecast: bool)
    requires st.log <= s.store.log && RobustUpdated(st, s, id, cf, typecast)
    ensures NoSearch(Since(st, s.store)) && NoInsert(Since(st, s.store))
  {
    var E := Since(st, s.store);
    if !E[0].ok {
      FieldUpdatesNoSearch(E[1..], id, cf, typecast);
      FieldUpdatesNoInsert(E[1..], id, cf, typecast);
      assert E == [E[0]] + E[1..];
      NoSearchJoin([E[0]], E[1..]);
      NoInsertJoin([E[0]], E[1..]);
    }
  }

  /** `robust_update` never inserts. */
  lemma RobustUpdateNoInsert(svc: Service, st: Store, id: Name, fields: Dict, typecast: bool)
    ensures NoInsert(Since(st, RobustUpdate(svc, st, id, fields, typecast).store))
  {
    RobustUpdatedCalls(st, RobustUpdate(svc, st, id, fields, typecast), id, CoerceAll(fields), typecast);
  }

  /** Neither upsert searches the table: both only insert and update. */
  lemma UpsertsNoSearch(svc: Service, st: Store, id: Name, fields: Dict, typecast: bool)
    ensures NoSearch(Since(st, Upsert(svc, st, id, fields, typecast).store))
    ensures NoSearch(Since(st, RobustUpsert(svc, st, id, fields, typecast).store))
  {
    PlainUpsertNoSearch(svc, st, id, fields, typecast);
    if id != NoName {
      RobustUpdateNoSearch(svc, st, id, fields, typecast);
    } else {
      RobustInsertNoSearch(svc, st, fields, typecast);
    }
  }

  lemma PlainUpsertNoSearch(svc: Service, st: Store, id: Name, fields: Dict, typecast: bool)
    ensures NoSearch(Since(st, Upsert(svc, st, id, fields, typecast).store))
  {
    var E := Since(st, Upsert(svc, st, id, fields, typecast).store);
    if id != NoName {
      assert E == [E[0]] + E[1..];
    }
  }
}

=== FILE: remote.dfy ===
/** The remote Airtable table, seen only through the REST client's calls. The client and the
    service are not part of this model: the table is a map from record id to fields, and a
    `Service` oracle decides which calls the service refuses and which id it assigns. */
module Remote {
  import opened Outcomes
  import opened Values
  import opened Dicts

  /** A record as the service returns it: `{'id': id, 'fields': fields}`. */
  datatype Record = Record(id: string, fields: Dict)

  /** One request to the service, with the arguments the client passes. */
  datatype Call =
    | InsertCall(fields: Dict, typecast: bool)
    | UpdateCall(id: Name, fields: Dict, typecast: bool)
    | DeleteCall(id: Name)
    | SearchCall(field: string, value: Value)

  /** A request and whether the service accepted it. */
  datatype Event = Event(call: Call, ok: bool)

  /** The table's records by id, the ids in table order, and every request made so far. */
  datatype Store = Store(records: map<string, Dict>, order: seq<string>, log: seq<Event>)

  /** What is not visible: whether the service refuses a request in a given state (bad values,
      unknown field, rate limit, network failure), and the id it gives a new record. */
  datatype Service = Service(rejects: (Store, Call) -> bool, mint: Store -> string)

  /** The result of a call together with the remote state after it. */
  datatype Step<+T> = Step(result: Result<T>, store: Store)

  /** Ids are unique and `order` lists exactly the stored records. */
  ghost predicate Valid(st: Store) {
    && Unique(st.order)
    && (forall id :: id in st.records <==> id in st.order)
  }

  /** No element occurs twice. */
  predicate Unique(s: seq<string>) {
    s == [] || (s[0] !in s[1..] && Unique(s[1..]))
  }

  /** A record-id argument that names a stored record. */
  predicate Known(st: Store, id: Name) {
    id.StrName? && id.s in st.records
  }

  /** None of `events` is a search. */
  predicate NoSearch(events: seq<Event>) {
    forall i :: 0 <= i < |events| ==> !events[i].call.SearchCall?
  }

  /** None of `events` is an insert. */
  predicate NoInsert(events: seq<Event>) {
    forall i :: 0 <= i < |events| ==> !events[i].call.InsertCall?
  }

  lemma NoSearchJoin(a: seq<Event>, b: seq<Event>)
    requires NoSearch(a) && NoSearch(b)
    ensures NoSearch(a + b)
  {
    assert forall i :: 0 <= i < |b| ==> (a + b)[|a| + i] == b[i];
  }

  lemma NoInsertJoin(a: seq<Event>, b: seq<Event>)
    requires NoInsert(a) && NoInsert(b)
    ensures NoInsert(a + b)
  {
    assert forall i :: 0 <= i < |b| ==> (a + b)[|a| + i] == b[i];
  }

  /** `Airtable.insert(fields, typecast)`: creates a record under a fresh id. */
  function Insert(svc: Service, st: Store, fields: Dict, typecast: bool): (s: Step<Record>)
    ensures s.store.log == st.log + [Event(InsertCall(fields, typecast), s.result.Ok?)]
    ensures s.result.Ok? ==> && s.result.value.fields == fields
                             && s.result.value.id !in st.records
                             && s.store.records == st.records[s.result.value.id := fields]
                             && s.store.order == st.order + [s.result.value.id]
    ensures s.result.Err? ==> s.result.error == Rejected && s.store.records == st.records && s.store.order == st.order
  {
    var call := InsertCall(fields, typecast);
    var id := svc.mint(st);
    if svc.rejects(st, call) || id in st.records then
      Step(Err(Rejected), st.(log := st.log + [Event(call, false)]))
    else
      Step(Ok(Record(id, fields)),
           Store(st.records[id := fields], st.order + [id], st.log + [Event(call, true)]))
  }

  /** `Airtable.update(record_id, fields, typecast)`: merges `fields` into an existing record and
      returns the whole record; an id that names no record is refused. */
  function Update(svc: Service, st: Store, id: Name, fields: Dict, typecast: bool): (s: Step<Record>)
    ensures s.store.log == st.log + [Event(UpdateCall(id, fields, typecast), s.result.Ok?)]
    ensures s.store.order == st.order
    ensures s.result.Ok? ==> && Known(st, id)
                             && s.result.value == Record(id.s, Merge(st.records[id.s], fields))
                             && s.store.records == st.records[id.s := s.result.value.fields]
    ensures s.result.Err? ==> s.result.error == Rejected && s.store.records == st.records
  {
    var call := UpdateCall(id, fields, typecast);
    if Known(st, id) && !svc.rejects(st, call) then
      var merged := Merge(st.records[id.s], fields);
      Step(Ok(Record(id.s, merged)),
           st.(records := st.records[id.s := merged], log := st.log + [Event(call, true)]))
    else
      Step(Err(Rejected), st.(log := st.log + [Event(call, false)]))
  }

  /** `Airtable.delete(record_id)`: removes an existing record and returns its id. */
  function Delete(svc: Service, st: Store, id: Name): (s: Step<string>)
    ensures s.store.log == st.log + [Event(DeleteCall(id), s.result.Ok?)]
    ensures s.result.Ok? ==> && Known(st, id) && s.result.value == id.s
                             && s.store.records == st.records - {id.s}
    ensures s.result.Err? ==> s.result.error == Rejected && s.store.records == st.records && s.store.order == st.order
  {
    var call := DeleteCall(id);
    if Known(st, id) && !svc.rejects(st, call) then
      Step(Ok(id.s), Store(st.records - {id.s}, Without(st.order, id.s), st.log + [Event(call, true)]))
    else
      Step(Err(Rejected), st.(log := st.log + [Event(call, false)]))
  }

  function Without(ids: seq<string>, x: string): (r: seq<string>)
    ensures forall y :: y in r <==> y in ids && y != x
  {
    if ids == [] then []
    else if ids[0] == x then Without(ids[1..], x)
    else [ids[0]] + Without(ids[1..], x)
  }

  /** The ids, in table order, of the stored records whose `field` holds `value`. */
  function Matching(st: Store, ids: seq<string>, field: string, value: Value): (r: seq<string>)
    ensures forall id :: id in r <==> id in ids && id in st.records && Get(st.records[id], field) == Some(value)
  {
    if ids == [] then []
    else
      var rest := Matching(st, ids[1..], field, value);
      var id := ids[0];
      assert ids == [id] + ids[1..];
      if id in st.records && Get(st.records[id], field) == Some(value) then [id] + rest else rest
  }

  /** `Airtable.search(field_name, field_value)`: the matching records in table order. */
  function Search(svc: Service, st: Store, field: string, value: Value): (s: Step<seq<string>>)
    ensures s.store == st.(log := st.log + [Event(SearchCall(field, value), s.result.Ok?)])
    ensures s.result.Ok? ==> s.result.value == Matching(st, st.order, field, value)
    ensures s.result.Err? ==> s.result.error == Rejected
  {
    var call := SearchCall(field, value);
    if svc.rejects(st, call) then Step(Err(Rejected), st.(log := st.log + [Event(call, false)]))
    else Step(Ok(Matching(st, st.order, field, value)), st.(log := st.log + [Event(call, true)]))
  }

  /** `Airtable.get_all()`: every record in table order. */
  function GetAll(st: Store): (r: seq<Record>)
    ensures Valid(st) ==> |r| == |st.order|
    ensures Valid(st) ==> forall i :: 0 <= i < |r| ==> r[i] == Record(st.order[i], st.records[st.order[i]])
  {
    RecordsOf(st.records, st.order)
  }

  function RecordsOf(records: map<string, Dict>, ids: seq<string>): (r: seq<Record>)
    ensures (forall id :: id in ids ==> id in records) ==> |r| == |ids|
    ensures (forall id :: id in ids ==> id in records) ==>
              forall i :: 0 <= i < |r| ==> r[i] == Record(ids[i], records[ids[i]])
  {
    if ids == [] then []
    else
      var rest := RecordsOf(records, ids[1..]);
      assert ids == [ids[0]] + ids[1..];
      if ids[0] in records then [Record(ids[0], records[ids[0]])] + rest else rest
  }

  // Every call keeps the store well formed.

  lemma InsertKeepsValid(svc: Service, st: Store, fields: Dict, typecast: bool)
    requires Valid(st)
    ensures Valid(Insert(svc, st, fields, typecast).store)
  {
    var s := Insert(svc, st, fields, typecast);
    if s.result.Ok? {
      UniqueAppend(st.order, s.result.value.id);
    }
  }

  lemma {:induction false} UniqueAppend(s: seq<string>, x: string)
    requires x !in s
    ensures Unique(s) ==> Unique(s + [x])
  {
    if s != [] {
      UniqueAppend(s[1..], x);
      assert (s + [x])[1..] == s[1..] + [x];
    }
  }

  lemma UpdateKeepsValid(svc: Service, st: Store, id: Name, fields: Dict, typecast: bool)
    requires Valid(st)
    ensures Valid(Update(svc, st, id, fields, typecast).store)
  {
  }

  lemma DeleteKeepsValid(svc: Service, st: Store, id: Name)
    requires Valid(st)
    ensures Valid(Delete(svc, st, id).store)
  {
    var s := Delete(svc, st, id);
    if s.result.Ok? {
      WithoutKeepsDistinct(st.order, id.s);
    }
  }

  lemma {:induction false} WithoutKeepsDistinct(ids: seq<string>, x: string)
    requires Unique(ids)
    ensures Unique(Without(ids, x))
  {
    if ids != [] {
      WithoutKeepsDistinct(ids[1..], x);
      var rest := Without(ids[1..], x);
      assert ([ids[0]] + rest)[1..] == rest;
    }
  }

  /** The stored records whose `field` holds `value`. */
  ghost function MatchSet(st: Store, field: string, value: Value): set<string> {
    set id | id in st.records && Get(st.records[id], field) == Some(value)
  }

  /** The search finds exactly the stored records whose field holds the value, each once. */
  lemma {:induction false} SearchCountsRecords(st: Store, field: string, value: Value)
    requires Valid(st)
    ensures |Matching(st, st.order, field, value)| == |MatchSet(st, field, value)|
  {
    var m := Matching(st, st.order, field, value);
    MatchingDistinct(st, st.order, field, value);
    UniqueSetSize(m);
    assert (set x | x in m) == MatchSet(st, field, value);
  }

  lemma {:induction false} MatchingDistinct(st: Store, ids: seq<string>, field: string, value: Value)
    requires Unique(ids)
    ensures Unique(Matching(st, ids, field, value))
  {
    if ids != [] {
      MatchingDistinct(st, ids[1..], field, value);
      var rest := Matching(st, ids[1..], field, value);
      assert ([ids[0]] + rest)[1..] == rest;
    }
  }

  lemma {:induction false} UniqueSetSize(s: seq<string>)
    requires Unique(s)
    ensures |set x | x in s| == |s|
  {
    if s != [] {
      UniqueSetSize(s[1..]);
      assert (set x | x in s) == {s[0]} + (set x | x in s[1..]);
    }
  }
}

=== FILE: upload.dfy ===
/** `upload_Series_to_airtable` and `upload_df_to_airtable`: the module-level upload that finds a
    row's record by searching its primary-key value, creates it when nothing matches and
    overwrites the first match only when asked to. A row is given as its `to_dict()` mapping. */
module SeriesUpload {
  import opened Outcomes
  import opened Values
  import opened Dicts
  import opened Remote
  import opened PandasAirtable

  /** Every record stored in `before` is still stored, with the same fields, in `after`. */
  ghost predicate Preserves(before: Store, after: Store) {
    forall id :: id in before.records ==> id in after.records && after.records[id] == before.records[id]
  }

  /** No listed record holds `value` in `field`. */
  ghost predicate NoneMatch(st: Store, field: string, value: Value) {
    forall id :: id in st.order && id in st.records ==> Get(st.records[id], field) != Some(value)
  }

  /** The overwrite branch: one typecast update of the first match with every field, then, when
      that is refused and the per-field retry is on, one typecast update per field; refusals are
      swallowed. */
  function Overwrite(svc: Service, st: Store, id: Name, fields: Dict, tryOne: bool): (s: Step<()>)
    ensures s.result == Ok(())
    ensures st.log < s.store.log && s.store.log[|st.log|].call == UpdateCall(id, fields, true)
    ensures s.store.order == st.order
    ensures NoSearch(Since(st, s.store)) && NoInsert(Since(st, s.store))
    ensures forall k :: k in st.records && !(id.StrName? && k == id.s) ==> k in s.store.records && s.store.records[k] == st.records[k]
    ensures s.store.records.Keys == st.records.Keys
    ensures var E := Since(st, s.store);
            && (E[0].ok || !tryOne ==> |E| == 1)
            && (!E[0].ok && tryOne ==> FieldUpdates(E[1..], id, fields, true))
            && (E[0].ok ==> id.StrName? && id.s in st.records && s.store.records[id.s] == Merge(st.records[id.s], fields))
  {
    var u := Update(svc, st, id, fields, true);
    if u.result.Ok? || !tryOne then Step(Ok(()), u.store)
    else
      var f := UpdateOneFieldAtATime(svc, u.store, id, fields, true);
      FieldUpdatesNoSearch(Since(u.store, f.store), id, fields, true);
      FieldUpdatesNoInsert(Since(u.store, f.store), id, fields, true);
      SinceSplit(st, u.store, f.store);
      NoSearchJoin(Since(st, u.store), Since(u.store, f.store));
      NoInsertJoin(Since(st, u.store), Since(u.store, f.store));
      Step(Ok(()), f.store)
  }

  /** The fallback after a refused insert: create the record with its primary key alone, find it
      again with `match` (the first record holding that key, or `{}` whose `['id']` raises
      KeyError), then write every field to it one at a time. */
  function CreateThenFill(svc: Service, st: Store, fields: Dict, pk: string, key: Value): (s: Step<()>)
    ensures st.log < s.store.log && s.store.log[|st.log|].call == InsertCall([Entry(pk, key)], true)
    ensures s.result.Err? ==> s.result.error in {Rejected, KeyError}
    ensures var E := Since(st, s.store);
            && (!E[0].ok ==> |E| == 1 && s.result == Err(Rejected))
            && (E[0].ok ==> |E| >= 2 && E[1].call == SearchCall(pk, key) && (s.result.Ok? <==> E[1].ok && s.result != Err(KeyError)))
    ensures var seed := Insert(svc, st, [Entry(pk, key)], true);
            var m := Search(svc, seed.store, pk, key);
            && (s.result == Err(KeyError) <==> seed.result.Ok? && m.result.Ok? && m.result.value == [])
            && (s.result.Ok? ==> m.result.Ok? && m.result.value != [] &&
                                 FieldUpdates(Since(st, s.store)[2..], StrName(m.result.value[0]), fields, true))
  {
    var seed := Insert(svc, st, [Entry(pk, key)], true);
    if seed.result.Err? then Step(Err(Rejected), seed.store)
    else
      var m := Search(svc, seed.store, pk, key);
      if m.result.Err? then Step(Err(Rejected), m.store)
      else if m.result.value == [] then Step(Err(KeyError), m.store)
      else
        var f := UpdateOneFieldAtATime(svc, m.store, StrName(m.result.value[0]), fields, true);
        Step(Ok(()), f.store)
  }

  /** The creating branch: one typecast insert of every field; when it is refused and the
      per-field retry is on, the fallback. Without the retry a refusal is swallowed. */
  function Create(svc: Service, st: Store, fields: Dict, pk: string, key: Value, tryOne: bool): (s: Step<()>)
    ensures st.log < s.store.log && s.store.log[|st.log|].call == InsertCall(fields, true)
    ensures s.result.Err? ==> tryOne && s.result.error in {Rejected, KeyError}
  {
    var ins := Insert(svc, st, fields, true);
    if ins.result.Ok? || !tryOne then Step(Ok(()), ins.store)
    else
      var c := CreateThenFill(svc, ins.store, fields, pk, key);
      Step(c.result, c.store)
  }

  /** `upload_Series_to_airtable(airtable, data, primary_key, overwrite, try_one_field_at_a_time)`:
      coerces every value, searches for the primary-key value (a row without that key raises
      KeyError before any request), leaves a matched record alone unless `overwrite`, and creates
      the record when nothing matches. */
  function UploadSeries(svc: Service, st: Store, data: Dict, pk: string, overwrite: bool, tryOne: bool): (s: Step<()>)
    ensures Get(data, pk).None? ==> s == Step(Err(KeyError), st)
    ensures Get(data, pk).Some? ==>
              && st.log < s.store.log
              && s.store.log[|st.log|].call == SearchCall(pk, Coerce(Get(data, pk).value))
    ensures s.result.Err? ==> s.result.error in {Rejected, KeyError}
  {
    var fields := CoerceAll(data);
    match Get(fields, pk)
    case None => Step(Err(KeyError), st)
    case Some(key) =>
      var found := Search(svc, st, pk, key);
      if found.result.Err? then Step(Err(Rejected), found.store)
      else if found.result.value != [] then
        if !overwrite then Step(Ok(()), found.store)
        else Overwrite(svc, found.store, StrName(found.result.value[0]), fields, tryOne)
      else
        Create(svc, found.store, fields, pk, key, tryOne)
  }

  /** A row whose key already has a record is left alone when overwriting is off: the search is
      the only request and the call returns normally. */
  lemma PresentRowIsSkipped(svc: Service, st: Store, data: Dict, pk: string, tryOne: bool)
    requires Get(data, pk).Some?
    requires !svc.rejects(st, SearchCall(pk, Coerce(Get(data, pk).value)))
    requires Matching(st, st.order, pk, Coerce(Get(data, pk).value)) != []
    ensures UploadSeries(svc, st, data, pk, false, tryOne)
              == Step(Ok(()), st.(log := st.log + [Event(SearchCall(pk, Coerce(Get(data, pk).value)), true)]))
  {
  }

  /** A row whose key no record holds is created: after the search, the next request is one
      typecast insert of the coerced row, and when that is accepted the call returns with a new
      record holding exactly the coerced row. */
  lemma AbsentRowIsCreated(svc: Service, st: Store, data: Dict, pk: string, overwrite: bool, tryOne: bool)
    requires Get(data, pk).Some?
    requires !svc.rejects(st, SearchCall(pk, Coerce(Get(data, pk).value)))
    requires Matching(st, st.order, pk, Coerce(Get(data, pk).value)) == []
    ensures var s := UploadSeries(svc, st, data, pk, overwrite, tryOne);
            var found := Search(svc, st, pk, Coerce(Get(data, pk).value));
            var ins := Remote.Insert(svc, found.store, CoerceAll(data), true);
            && |s.store.log| >= |st.log| + 2
            && s.store.log[|st.log| + 1] == Event(InsertCall(CoerceAll(data), true), ins.result.Ok?)
            && (ins.result.Ok? ==> && s == Step(Ok(()), ins.store)
                                   && ins.result.value.id !in st.records
                                   && s.store.records == st.records[ins.result.value.id := CoerceAll(data)])
  {
  }

  /** With overwriting on, a matched row's fields go to the FIRST match in table order (further
      matches are only warned about), no record is created and no other record changes. */
  lemma OverwriteTargetsFirstMatch(svc: Service, st: Store, data: Dict, pk: string, tryOne: bool)
    requires Get(data, pk).Some?
    requires !svc.rejects(st, SearchCall(pk, Coerce(Get(data, pk).value)))
    requires Matching(st, st.order, pk, Coerce(Get(data, pk).value)) != []
    ensures var first := Matching(st, st.order, pk, Coerce(Get(data, pk).value))[0];
            var s := UploadSeries(svc, st, data, pk, true, tryOne);
            && |s.store.log| >= |st.log| + 2
            && s.store.log[|st.log| + 1].call == UpdateCall(StrName(first), CoerceAll(data), true)
            && s.result == Ok(())
            && s.store.order == st.order
            && s.store.records.Keys == st.records.Keys
            && forall k :: k in st.records && k != first ==> s.store.records[k] == st.records[k]
  {
  }

  /** When no record holds the key and the full insert is refused, the fallback's `match` finds
      exactly the record it has just created, so the per-field writes land there and every record
      that existed before is untouched. */
  lemma FillTargetsCreatedRecord(svc: Service, st: Store, fields: Dict, pk: string, key: Value)
    requires NoneMatch(st, pk, key)
    ensures var s := CreateThenFill(svc, st, fields, pk, key);
            var seed := Insert(svc, st, [Entry(pk, key)], true);
            && Preserves(st, s.store)
            && (seed.result.Ok? ==>
                  && s.store.log[|st.log| + 1].call == SearchCall(pk, key)
                  && (s.result.Ok? <==> s.store.log[|st.log| + 1].ok)
                  && (s.result.Ok? ==> FieldUpdates(s.store.log[|st.log| + 2..], StrName(seed.result.value.id), fields, true)))
  {
    var seed := Insert(svc, st, [Entry(pk, key)], true);
    if seed.result.Ok? {
      var n := seed.result.value.id;
      var m := Search(svc, seed.store, pk, key);
      if m.result.Ok? {
        Cons(Entry(pk, key), []);
        assert n in m.result.value;
        assert forall x :: x in m.result.value ==> x == n;
        assert m.result.value[0] in m.result.value;
        var f := UpdateOneFieldAtATime(svc, m.store, StrName(n), fields, true);
        assert Since(m.store, f.store) == f.store.log[|st.log| + 2..];
      }
    }
  }

  /** A row either finds its record or creates one; with overwriting off, no record that existed
      before the upload changes, whichever branch runs. */
  lemma NoOverwriteKeepsRecords(svc: Service, st: Store, data: Dict, pk: string, tryOne: bool)
    ensures Preserves(st, UploadSeries(svc, st, data, pk, false, tryOne).store)
  {
    var fields := CoerceAll(data);
    if Get(fields, pk).Some? {
      var key := Get(fields, pk).value;
      var found := Search(svc, st, pk, key);
      if found.result.Ok? && found.result.value == [] {
        var ins := Insert(svc, found.store, fields, true);
        if ins.result.Err? && tryOne {
          assert NoneMatch(ins.store, pk, key);
          FillTargetsCreatedRecord(svc, ins.store, fields, pk, key);
        }
      }
    }
  }

  /** One row's upload, as the frame loop calls it. */
  type Uploader = (Store, Dict) -> Step<()>

  /** A row upload only ever adds requests to the log. */
  ghost predicate Grows(upload: Uploader) {
    forall st: Store, row: Dict :: st.log <= upload(st, row).store.log
  }

  /** A row upload raises nothing but a refusal or KeyError. */
  ghost predicate RaisesUploadErrors(upload: Uploader) {
    forall st: Store, row: Dict :: upload(st, row).result.Err? ==> upload(st, row).result.error in {Rejected, KeyError}
  }

  /** `upload_Series_to_airtable(airtable, row, primary_key, overwrite, try_one_field_at_a_time)`
      as the step of the frame loop. */
  function RowUploader(svc: Service, pk: string, overwrite: bool, tryOne: bool): (upload: Uploader)
    ensures Grows(upload) && RaisesUploadErrors(upload)
  {
    (st, row) => UploadSeries(svc, st, row, pk, overwrite, tryOne)
  }

  /** The loop of `upload_df_to_airtable`: the rows in order; an exception from a row ends it. */
  function UploadRows(upload: Uploader, st: Store, rows: seq<Dict>): (s: Step<()>)
    requires Grows(upload)
    ensures st.log <= s.store.log
    ensures rows == [] ==> s == Step(Ok(()), st)
    ensures RaisesUploadErrors(upload) && s.result.Err? ==> s.result.error in {Rejected, KeyError}
    decreases |rows|
  {
    if rows == [] then Step(Ok(()), st)
    else
      var r := upload(st, rows[0]);
      if r.result.Err? then r else UploadRows(upload, r.store, rows[1..])
  }

  /** `upload_df_to_airtable(airtable, df, primary_key, overwrite, try_one_field_at_a_time)`. */
  function UploadFrame(svc: Service, st: Store, rows: seq<Dict>, pk: string, overwrite: bool, tryOne: bool): (s: Step<()>)
    ensures st.log <= s.store.log
    ensures rows == [] ==> s == Step(Ok(()), st)
    ensures s.result.Err? ==> s.result.error in {Rejected, KeyError}
  {
    UploadRows(RowUploader(svc, pk, overwrite, tryOne), st, rows)
  }

  /** The loop as a left fold: uploading one more row first uploads the others, then, unless
      that raised, uploads the new row to the table they left behind. */
  lemma {:induction false} UploadRowsSnoc(upload: Uploader, st: Store, rows: seq<Dict>, row: Dict)
    requires Grows(upload)
    ensures UploadRows(upload, st, rows + [row]) ==
              var p := UploadRows(upload, st, rows);
              if p.result.Err? then p else upload(p.store, row)
    decreases |rows|
  {
    if rows == [] {
      assert [] + [row] == [row];
      assert [row][1..] == [];
      var r := upload(st, row);
      if r.result.Ok? {
        assert r.result.value == ();
      }
    } else {
      assert (rows + [row])[0] == rows[0];
      assert (rows + [row])[1..] == rows[1..] + [row];
      var r := upload(st, rows[0]);
      if r.result.Ok? {
        UploadRowsSnoc(upload, r.store, rows[1..], row);
      }
    }
  }

  /** A finished loop uploaded every row, in order, each to the table the rows before it left,
      and none of them raised. */
  lemma {:induction false} UploadRowsFinished(upload: Uploader, st: Store, rows: seq<Dict>)
    requires Grows(upload)
    requires UploadRows(upload, st, rows).result.Ok?
    ensures forall i :: 0 <= i < |rows| ==>
              && UploadRows(upload, st, rows[..i]).result.Ok?
              && upload(UploadRows(upload, st, rows[..i]).store, rows[i]).result.Ok?
    decreases |rows|
  {
    if rows != [] {
      var n := |rows| - 1;
      var init := rows[..n];
      assert rows == init + [rows[n]];
      assert rows[..n] == init;
      UploadRowsSnoc(upload, st, init, rows[n]);
      UploadRowsFinished(upload, st, init);
      assert forall i :: 0 <= i < n ==> init[..i] == rows[..i] && init[i] == rows[i];
    }
  }

  /** A loop that raised stopped at the first row whose upload raised: the rows before it went
      through, and the exception and the table are the ones that row's upload left. */
  lemma {:induction false} UploadRowsStops(upload: Uploader, st: Store, rows: seq<Dict>)
    requires Grows(upload)
    requires UploadRows(upload, st, rows).result.Err?
    ensures exists i :: 0 <= i < |rows| &&
              var p := UploadRows(upload, st, rows[..i]);
              && p.result.Ok? && upload(p.store, rows[i]).result.Err?
              && UploadRows(upload, st, rows) == upload(p.store, rows[i])
    decreases |rows|
  {
    var n := |rows| - 1;
    var init := rows[..n];
    assert rows == init + [rows[n]];
    assert rows[..n] == init;
    UploadRowsSnoc(upload, st, init, rows[n]);
    var p := UploadRows(upload, st, init);
    if p.result.Err? {
      UploadRowsStops(upload, st, init);
      var i :| 0 <= i < n &&
        var q := UploadRows(upload, st, init[..i]);
        q.result.Ok? && upload(q.store, init[i]).result.Err? && p == upload(q.store, init[i]);
      assert init[..i] == rows[..i] && init[i] == rows[i];
    }
  }

  /** `upload_df_to_airtable` uploads the rows one after another with `upload_Series_to_airtable`:
      when it returns, every row's upload, on the table the rows before it left, returned; when
      it raises, it raised at the first row whose upload raised, and nothing was sent after. */
  lemma UploadFrameInOrder(svc: Service, st: Store, rows: seq<Dict>, pk: string, overwrite: bool, tryOne: bool)
    ensures var s := UploadFrame(svc, st, rows, pk, overwrite, tryOne);
            s.result.Ok? ==>
              forall i :: 0 <= i < |rows| ==>
                && UploadFrame(svc, st, rows[..i], pk, overwrite, tryOne).result.Ok?
                && UploadSeries(svc, UploadFrame(svc, st, rows[..i], pk, overwrite, tryOne).store, rows[i], pk, overwrite, tryOne).result.Ok?
    ensures var s := UploadFrame(svc, st, rows, pk, overwrite, tryOne);
            s.result.Err? ==>
              exists i :: 0 <= i < |rows| &&
                var p := UploadFrame(svc, st, rows[..i], pk, overwrite, tryOne);
                && p.result.Ok? && UploadSeries(svc, p.store, rows[i], pk, overwrite, tryOne).result.Err?
                && s == UploadSeries(svc, p.store, rows[i], pk, overwrite, tryOne)
  {
    var upload := RowUploader(svc, pk, overwrite, tryOne);
    if UploadRows(upload, st, rows).result.Ok? {
      UploadRowsFinished(upload, st, rows);
    } else {
      UploadRowsStops(upload, st, rows);
    }
  }

  /** Uploading a frame with overwriting off never changes a record that existed before. */
  lemma FrameNoOverwriteKeepsRecords(svc: Service, st: Store, rows: seq<Dict>, pk: string, tryOne: bool)
    ensures Preserves(st, UploadFrame(svc, st, rows, pk, false, tryOne).store)
  {
    RowsNoOverwriteKeepsRecords(svc, st, rows, pk, tryOne);
  }

  lemma {:induction false} RowsNoOverwriteKeepsRecords(svc: Service, st: Store, rows: seq<Dict>, pk: string, tryOne: bool)
    ensures Preserves(st, UploadRows(RowUploader(svc, pk, false, tryOne), st, rows).store)
    decreases |rows|
  {
    if rows != [] {
      var upload := RowUploader(svc, pk, false, tryOne);
      var r := upload(st, rows[0]);
      NoOverwriteKeepsRecords(svc, st, rows[0], pk, tryOne);
      if r.result.Ok? {
        RowsNoOverwriteKeepsRecords(svc, r.store, rows[1..], pk, tryOne);
      }
    }
  }
}

=== FILE: values.dfy ===
/** Cell values as the tabular layer produces them, and their coercion for the remote API
    (`typecast_airtable_value`). */
module Values {

  /** numpy.int64: a signed 64-bit integer. */
  newtype int64 = x: int | -0x8000_0000_0000_0000 <= x < 0x8000_0000_0000_0000

  /** The values a row cell can hold. Floating point is abstracted to its real value;
      every value `pd.isna` recognises (float NaN, `pd.NA`, `pd.NaT`) is the single tag `Missing`. */
  datatype Value =
    | Null                  // Python None
    | Missing               // a NaN-like marker
    | Bool(b: bool)
    | Int(i: int)           // a Python int (unbounded)
    | Int64(n: int64)       // a numpy.int64
    | Float(x: real)
    | Str(s: string)
    | List(items: seq<Value>)
    | Attachment(url: string)  // an attachment entry `{'url': url}`

  /** A pandas label or a record-id argument: Python None, an int or a str. */
  datatype Name = NoName | IntName(i: int) | StrName(s: string)

  /** A value the remote API accepts as is: no numpy integer and no NaN-like marker at top level. */
  predicate Sendable(v: Value) {
    !v.Int64? && !v.Missing?
  }

  /** `typecast_airtable_value`: lists pass unchanged, an int64 becomes the int of the same value,
      a NaN-like value (or None) becomes None, anything else passes unchanged. */
  function Coerce(v: Value): (r: Value)
    ensures Sendable(r)
    ensures Sendable(v) ==> r == v
    ensures v.Int64? ==> r.Int? && r.i == v.n as int
    ensures v.Missing? ==> r.Null?
  {
    match v
    case List(_) => v
    case Int64(n) => Int(n as int)
    case Missing => Null
    case _ => v
  }

  /** Coercing an already coerced value changes nothing. */
  lemma CoerceIdempotent(v: Value)
    ensures Coerce(Coerce(v)) == Coerce(v)
  {
  }

  /** The values coercion leaves alone are exactly the ones the remote API accepts. */
  lemma CoerceFixedPoints(v: Value)
    ensures Coerce(v) == v <==> Sendable(v)
  {
  }
}
